=== FILE: README.md ===
# Conference-session backend: a Dafny model of its scheduling and admission rules

This project models the decision logic of a conference-session backend:
- hosts propose sessions;
- coordinators approve or reject them;
- users register for approved sessions and leave feedback after a session ends.

The model covers the conference, registration and feedback services and
repositories, the option merge of a partial update, the response mapping, and
the role gate of the HTTP middleware. The properties proved about it are:
- guard chains that return the first failing check;
- the two overlap predicates (half-open and closed) and how they differ;
- keyset pagination, including a backward walk that the trim as written does not round-trip and the corrected trim does;
- store invariants that every write operation keeps.

Everything is a pure function over immutable values:
- The store is `Store(conferences, registrations, feedbacks, users)`. Conferences, feedbacks and users are sequences of rows; registrations are a set of `(conference id, user id)` pairs.
- Time is an `int`. A request sees a single `now`.
- Ids are `nat`, with `Nil == 0` standing for the zero UUID. UUIDv7 order is id order.
- The requester is a `Principal` with an optional id and an optional role. Either can be missing from the request context.
- Store I/O failure is a parameter `faults: set<Call>`. A repository call listed in it fails with a driver error.
- Id generation is a parameter `newId: Option<Id>`. `None` means the generator failed.
- A Go panic is caught by the recovery middleware and answered with an internal error. The model writes it as `Err(Internal)`.

Modules, in dependency order:
- `Base`: Option, Result, Filter, Take, Reverse.
- `Ordering`: keys, sortedness and a stable insertion sort.
- `Domain`: entities, enums, errors and the store.
- `ConferenceDto`: the update merge and the response mapping.
- `Paging`: limit+1 pages, trimming and reversal, and backward walks over them.
- `ConferenceRepository`, `ConferenceService`.
- `RegistrationRepository`, `RegistrationService`.
- `FeedbackRepository`, `FeedbackService`.
- `AuthMiddleware`: the role gate.
- `Invariants`: store consistency and its preservation.

## Model

| member | source | states |
|---|---|---|
| ConferenceDto.Merge | domain/dto/conference_dto.go:86-113 | every field the request supplies takes the request's value; every absent field keeps the entity's; id, seats, host, status, timestamps and the registration count never change |
| ConferenceDto.MergeIdempotent | domain/dto/conference_dto.go:86-113 | applying the same update twice equals applying it once |
| ConferenceDto.MergeNoChange | domain/dto/conference_dto.go:86-113 | an update that names no field leaves the conference unchanged |
| ConferenceDto.MergeThen | domain/dto/conference_dto.go:86-113 | two updates in a row equal one update carrying the later value of each field |
| ConferenceDto.MergeWindow | domain/dto/conference_dto.go:105-110 | with neither time given the window is kept, and with both given it is the requested one |
| ConferenceDto.Populate | domain/dto/conference_dto.go:29-47 | the response copies id, text fields, seats, window, status, host and the entity's registration count (as seats taken) verbatim |
| ConferenceDto.NoCountNoSeatsTaken | domain/dto/conference_dto.go:44 | entities read without a registration count map to responses with zero seats taken |
| ConferenceDto.PopulateCommutesWithMerge | domain/dto/conference_dto.go:29-47 | mapping a merged entity equals merging the update into the mapped response |
| ConferenceRepository.Conflicting | internal/app/conference/repository/conference_repository.go:315-328 | at most 10 rows, ordered by start; every one is live, approved, not the excluded id, and overlaps the half-open window; they are the earliest: no conflicting row left out starts before a returned one; no row is returned more often than it conflicts (the result is a sub-multiset of the conflicting rows); empty iff no row of the table conflicts |
| ConferenceRepository.GetConflictingWithTime | internal/app/conference/repository/conference_repository.go:310-334 | fails only on a driver error; otherwise non-empty iff some stored row conflicts, and returns only conflicting stored rows, read with a registration count of zero |
| ConferenceRepository.Scanned | internal/app/conference/repository/conference_repository.go:57-60 | a row read back has registration count zero, because no SELECT list names registration_count; every other field is the stored column |
| ConferenceRepository.OverlapsSymmetric | internal/app/conference/repository/conference_repository.go:324-325 | window A overlaps window B iff B overlaps A |
| ConferenceRepository.FindLive | internal/app/conference/repository/conference_repository.go:61-65 | a row found has the id and is not soft-deleted; nothing is found iff every row with the id is deleted |
| ConferenceRepository.GetConferenceById | internal/app/conference/repository/conference_repository.go:54-74 | a driver error when the call fails; NoRows iff no live row has the id; otherwise a live stored row with that id, read with a registration count of zero |
| ConferenceRepository.CreateConference | internal/app/conference/repository/conference_repository.go:27-52 | succeeds iff the call does not fail and the id is new; on success appends exactly the inserted row and nothing else |
| ConferenceRepository.UpdateConference | internal/app/conference/repository/conference_repository.go:246-286 | NoRows iff no row has the id, deleted rows included; each row with the id equals that row with every column of the SET list (title, description, speaker name and title, audience, prerequisites, seats, window, host, status) taken from the argument and updated_at set to now, so id, creation time, deletion mark and registration count are kept; all other rows and tables are unchanged |
| ConferenceRepository.DeleteConference | internal/app/conference/repository/conference_repository.go:288-308 | NoRows iff no row has the id; on success each row with the id gets a deletion mark at `now` and nothing else changes |
| ConferenceRepository.DeleteTwice | internal/app/conference/repository/conference_repository.go:288-304 | deleting a deleted conference succeeds again, and the lookup by id then reports NoRows |
| ConferenceRepository.CursorKey | internal/app/conference/repository/conference_repository.go:140-147 | the cursor key is (starts_at, id) of a stored row with the cursor id, deleted or not; absent iff no row has the id |
| ConferenceRepository.Matching | internal/app/conference/repository/conference_repository.go:87-176 | exactly the stored rows that pass every active filter and cursor condition |
| ConferenceRepository.GetConferences | internal/app/conference/repository/conference_repository.go:76-244 | fails on a driver error and on the ambiguous bare-id cursor; the page has min(limit, matches) rows, all matching and read with a registration count of zero, no row more often than it matches (a sub-multiset of the matches), sorted in the requested direction, and preceding every matching row left out (no reversal for a before-cursor); has_more iff more than limit rows match; first and last ids are those of the page |
| Paging.ListPage | internal/app/conference/repository/conference_repository.go:225-241 | the page is the first min(limit, n) rows of the ordered fetch; has_more iff more than limit rows were fetched |
| Paging.KeysetPageShape | internal/app/registration/repository/registration_repository.go:111-128 | a forward page keeps the first rows; a backward page that overflows drops the first fetched row and reverses the rest; has_more iff the fetch exceeded the limit |
| Paging.KeysetPageAscending | internal/app/registration/repository/registration_repository.go:76-128 | a descending backward fetch, once trimmed and reversed, is ascending, as is a forward page |
| Paging.KeysetPageRows | internal/app/registration/repository/registration_repository.go:111-128 | trimming and reversal never produce a row that was not fetched |
| Paging.KeysetPageMultiset | internal/app/registration/repository/registration_repository.go:111-128 | the page is a sub-multiset of the fetch, all of it when nothing overflows, and on backward overflow exactly the first limit+1 fetched rows minus the first |
| Paging.KeysetList | internal/app/registration/repository/registration_repository.go:75-132 | at most limit rows, ascending, taken from the candidates without duplication; has_more iff more than limit candidates; every candidate when not has_more |
| Paging.KeysetListForwardIsHead | internal/app/registration/repository/registration_repository.go:115-119 | a forward page holds min(limit, n) rows, each ordered before every candidate left out |
| Paging.KeysetListBackwardDropsNearest | internal/app/registration/repository/registration_repository.go:113-119 | a backward page that overflows holds limit rows and leaves out a candidate nearest the cursor |
| Paging.KeysetPageCorrected | internal/app/registration/repository/registration_repository.go:113-119 | corrected trim: has_more iff the fetch overflows; forward pages as written; a backward page read back in query order is the head of the query, so the extra row dropped is the farthest |
| Paging.CorrectedPageIsSlice | internal/app/registration/repository/registration_repository.go:113-128 | with the corrected trim, an overflowing backward page over the rows before position k of an ascending listing is the limit rows just before k |
| Paging.AsWrittenPageIsSlice | internal/app/registration/repository/registration_repository.go:113-128 | with the trim as written, an overflowing backward page over the rows before position k is the limit rows before row k-1, which it skips |
| Paging.BackwardWalk | internal/app/registration/repository/registration_repository.go:113-131 | a backward walk, each next cursor the first row of the page before, never collects more rows than lie before its start |
| Paging.BackwardWalkReconstructs | internal/app/registration/repository/registration_repository.go:113-131 | with the corrected trim, walking backward from the end collects the whole listing in forward order |
| Paging.BackwardWalkAsWrittenLoses | internal/app/registration/repository/registration_repository.go:113-119 | with the trim as written, a walk that meets an overflowing page collects fewer rows than lie before its start |
| Paging.BackwardWalkAsWrittenExample | internal/app/registration/repository/registration_repository.go:113-119 | three rows, two per page: as written the walk returns only the first two; corrected it returns all three |
| ConferenceService.GetConferenceById | internal/app/conference/service/conference_service.go:146-173 | NotFound for a missing row, Internal for a failed read; Forbidden iff the requester has the user role, is not the host and the conference is not approved; otherwise the mapped row, whose seats taken is zero |
| ConferenceService.NonUsersSeeEverything | internal/app/conference/service/conference_service.go:163-167 | coordinators, admins and callers without a role read a live conference of any status |
| ConferenceService.NarrowQuery | internal/app/conference/service/conference_service.go:181-188 | for a plain user and a non-approved status: an absent host filter becomes the requester, a foreign one is Forbidden; every other query passes unchanged |
| ConferenceService.GetConferences | internal/app/conference/service/conference_service.go:175-205 | Forbidden from narrowing, Internal from a failed listing, otherwise the repository page of the narrowed query, mapped; every response has zero seats taken |
| ConferenceService.ForeignHostFilterReadsNothing | internal/app/conference/service/conference_service.go:182-188 | a foreign host filter yields Forbidden whatever the store and the failing calls, so nothing is read |
| ConferenceService.UsersSeeOnlyOwnUnapproved | internal/app/conference/service/conference_service.go:182-190 | a plain user listing a non-approved status sees only conferences they host |
| ConferenceService.ActiveProposalLookup | internal/app/conference/service/conference_service.go:44-57 | the open-proposal query succeeds, and it finds something iff the host has a live pending conference that has not ended |
| ConferenceService.CreateConferenceProposal | internal/app/conference/service/conference_service.go:31-144 | first failing check, in order: missing id, failed listing, active proposal, failed conflict query, conflict (excluding nothing), id generation, past start, end before start (equal accepted), failed or colliding insert, which gives Internal; a success appends one pending row under the generated fresh id, hosted by the requester, with every field copied from the request, and changes nothing else |
| ConferenceService.ConflictWindowAsWritten | internal/app/conference/service/conference_service.go:262 | the conflict query receives a window iff both requested times are present |
| ConferenceService.ConflictWindow | internal/app/conference/service/conference_service.go:230-262 | equals the requested window whenever both times are given; a time not given is taken from the stored conference |
| ConferenceService.ConflictWindowIsMergedWindow | internal/app/conference/service/conference_service.go:230-262 | the checked window is the window of the merged conference that the update stores |
| ConferenceService.OneSidedWindowHasNoConflictInput | internal/app/conference/service/conference_service.go:247-262 | moving only the start leaves the query without a window, while the merged window is defined |
| ConferenceService.UpdateConference | internal/app/conference/service/conference_service.go:207-303 | first failing check, in order: missing id, lookup, not host, ended, rejected; then, when a time is given: approved, past start, end before start, failed conflict query, conflict excluding its own id; last a failed update, which gives Internal; a success replaces each row with the id by the merged conference, every field included, except that the row keeps its creation time, deletion mark and registration count and takes now as its update time; status, host and seats are the original's because the merge keeps them; nothing else changes |
| ConferenceService.UpdateConferenceAsWritten | internal/app/conference/service/conference_service.go:246-286 | equals the corrected update except that a one-sided window that reaches the conflict query fails with Internal; a one-sided update never succeeds |
| ConferenceService.MovingOnlyTheStartFailsAsWritten | internal/app/conference/service/conference_service.go:262 | a host moving only the start of a pending session into a free slot gets Internal as written and succeeds under the merged window |
| ConferenceService.DeleteConference | internal/app/conference/service/conference_service.go:305-348 | Internal without id or role; lookup errors mapped; Forbidden iff a plain user is not the host; coordinators and admins delete any conference; a failed delete gives Internal; a success only marks the rows deleted |
| ConferenceService.DeletedIsNotFound | internal/app/conference/service/conference_service.go:317-321 | after a delete, reading the conference reports NotFound to everyone |
| ConferenceService.UpdateConferenceStatus | internal/app/conference/service/conference_service.go:350-420 | lookup errors mapped; a started conference only goes Pending to Rejected; approving runs the conflict check excluding its own id; a failed write gives Internal; a success replaces each row with the id by the looked-up conference with the new status, keeping the row's creation time, deletion mark and registration count and taking now as its update time; nothing else changes |
| ConferenceService.RejectedCanBeApproved | internal/app/conference/service/conference_service.go:366-404 | the source status is not checked: a rejected conference that has not started and has no conflict can be approved |
| RegistrationRepository.IsUserRegisteredToConference | internal/app/registration/repository/registration_repository.go:240-258 | fails only on a driver error; true iff the pair is stored |
| RegistrationRepository.CountRegistrationsByConference | internal/app/registration/repository/registration_repository.go:290-303 | the number of distinct users registered to the conference; zero iff no pair names it |
| RegistrationRepository.CreateRegistration | internal/app/registration/repository/registration_repository.go:25-47 | a success adds the pair, at most that pair, and leaves the other tables unchanged |
| RegistrationRepository.RegisteringCountsOnce | internal/app/registration/repository/registration_repository.go:290-303 | adding a new pair raises that conference's count by exactly one and leaves every other conference's registrants unchanged |
| RegistrationRepository.GetConflictingRegistrations | internal/app/registration/repository/registration_repository.go:260-288 | exactly the stored, live conferences the user is registered to whose window meets the requested one under the closed BETWEEN test; status is not filtered |
| RegistrationRepository.ClosedConflictIsIntersection | internal/app/registration/repository/registration_repository.go:275-281 | for well-formed windows the BETWEEN disjunction is closed-interval intersection |
| RegistrationRepository.HalfOpenOverlapIsClosedConflict | internal/app/registration/repository/registration_repository.go:275-281 | every half-open overlap is also a closed conflict |
| RegistrationRepository.AbuttingWindowsDiffer | internal/app/registration/repository/registration_repository.go:275-281 | a window starting where another ends is a closed conflict but not a half-open overlap |
| RegistrationRepository.DisjointWindowsDoNotConflict | internal/app/registration/repository/registration_repository.go:275-281 | windows that do not touch never conflict |
| RegistrationRepository.RegistrantCandidates | internal/app/registration/repository/registration_repository.go:57-73 | exactly the users registered to the conference strictly inside the cursors that are set, without duplication |
| RegistrationRepository.GetRegisteredUsersByConference | internal/app/registration/repository/registration_repository.go:49-135 | at most limit users, ascending by id, all registered and strictly inside the cursors; has_more iff more than limit candidates; the whole candidate set when not has_more; first and last ids are those of the page |
| RegistrationRepository.RegistrantsForwardPageIsHead | internal/app/registration/repository/registration_repository.go:115-119 | a forward page holds the min(limit, n) smallest ids past the cursor |
| RegistrationRepository.RegistrantsBackwardOverflowDropsNearest | internal/app/registration/repository/registration_repository.go:113-128 | a backward page that overflows holds limit users and leaves out a candidate nearest the cursor |
| RegistrationRepository.CursorStart | internal/app/registration/repository/registration_repository.go:161-166 | the cursor's starts_at is that of a stored row with the id; absent iff no row has the id |
| RegistrationRepository.AttendedCandidates | internal/app/registration/repository/registration_repository.go:145-169 | exactly the user's registered conferences, unended unless past ones are asked for, strictly inside the cursors by starts_at |
| RegistrationRepository.GetRegisteredConferencesByUser | internal/app/registration/repository/registration_repository.go:137-238 | at most limit conferences, ascending by start, all candidates read with a registration count of zero; has_more iff more than limit candidates; first and last ids are those of the page |
| RegistrationRepository.AttendedForwardPageIsHead | internal/app/registration/repository/registration_repository.go:214-222 | a forward page holds the min(limit, n) earliest candidates |
| RegistrationRepository.AttendedBackwardOverflowDropsNearest | internal/app/registration/repository/registration_repository.go:214-231 | a backward page that overflows holds limit conferences and leaves out a candidate nearest the cursor |
| RegistrationRepository.UnknownCursorYieldsNothing | internal/app/registration/repository/registration_repository.go:160-164 | an after-cursor naming no conference compares against NULL and yields an empty page |
| RegistrationService.Register | internal/app/registration/service/registration_service.go:29-107 | first failing check, in order: lookup, host, ended, failed check, already registered, failed count, full (count at least seats), failed conflict query, personal conflict, failed insert, which gives Internal; a success adds exactly the new pair, below the seat count |
| RegistrationService.RegisterTakesOneSeat | internal/app/registration/service/registration_service.go:61-104 | a success raises the conference's count by one, never past its seats, and leaves the other conferences' registrants alone |
| RegistrationService.UsersRegisterOnlyToApproved | internal/app/registration/service/registration_service.go:31-40 | a plain user registering themselves succeeds only for an approved conference |
| RegistrationService.GetRegisteredUsersByConference | internal/app/registration/service/registration_service.go:109-147 | both cursors give InvalidPagination first; then lookup errors; Forbidden iff a plain user is not the host; then the repository page, every user on it registered |
| RegistrationService.UsersListOnlyTheirOwnRegistrants | internal/app/registration/service/registration_service.go:123-125 | a plain user who lists registrants hosts the conference |
| RegistrationService.GetRegisteredConferencesByUser | internal/app/registration/service/registration_service.go:149-181 | both cursors give InvalidPagination first; Forbidden iff a plain user asks about someone else; then the repository page, mapped, with zero seats taken in every response |
| RegistrationService.InvalidPaginationComesFirst | internal/app/registration/service/registration_service.go:111-113 | with both cursors the outcome is InvalidPagination whatever the store, the requester and the failing calls |
| FeedbackRepository.CreateFeedback | internal/app/feedback/repository/feedback_repository.go:25-34 | succeeds iff the call does not fail and the id is new; appends exactly the given row, live |
| FeedbackRepository.FeedbackCandidates | internal/app/feedback/repository/feedback_repository.go:44-59 | exactly the live feedback of the conference strictly inside the cursors that are set |
| FeedbackRepository.GetFeedbacksByConferenceID | internal/app/feedback/repository/feedback_repository.go:36-142 | at most limit rows, ascending by id, all candidates; has_more iff more than limit candidates; the whole candidate set when not has_more; first and last ids are those of the page |
| FeedbackRepository.FeedbackForwardPageIsHead | internal/app/feedback/repository/feedback_repository.go:118-127 | a forward page holds the min(limit, n) smallest ids past the cursor |
| FeedbackRepository.FeedbackBackwardOverflowDropsNearest | internal/app/feedback/repository/feedback_repository.go:118-135 | a backward page that overflows holds limit rows and leaves out a candidate nearest the cursor |
| FeedbackRepository.DeleteFeedback | internal/app/feedback/repository/feedback_repository.go:144-165 | NoRows iff no row has the id; on success each row with the id gets a deletion mark and nothing else changes |
| FeedbackRepository.DeleteFeedbackTwice | internal/app/feedback/repository/feedback_repository.go:144-161 | deleting twice succeeds, and the deleted feedback leaves every listing |
| FeedbackService.CreateFeedback | internal/app/feedback/service/feedback_service.go:39-93 | first failing check, in order: failed registration check, not registered, lookup, host, not ended (ends after now), id generation, failed or colliding insert, which gives Internal; a success stores exactly one feedback with the generated id, user, conference and comment and returns that id |
| FeedbackService.UnregisteredNeedsNoLookup | internal/app/feedback/service/feedback_service.go:42-48 | an unregistered user is refused whatever the conferences and whether their lookup would fail |
| FeedbackService.FeedbackOpensAtEnd | internal/app/feedback/service/feedback_service.go:59-61 | feedback is accepted at the instant the conference ends and refused one unit earlier |
| FeedbackService.GetFeedbacksByConferenceID | internal/app/feedback/service/feedback_service.go:95-113 | Internal iff the listing fails; otherwise the repository page unchanged: at most limit live rows of the conference, ascending by id, has_more iff more than limit candidates, every candidate when there is no more, with a matching envelope |
| FeedbackService.DeleteFeedback | internal/app/feedback/service/feedback_service.go:115-135 | a failed call gives Internal; NotFound iff no row has the id; a success only marks that feedback deleted |
| AuthMiddleware.RequireOneOfRoles | internal/middleware/auth.go:50-66 | a missing role is an internal error; the super-admin always passes; any other role passes iff listed; a refused role gets ForbiddenRole |
| AuthMiddleware.EmptyListAdmitsOnlySuperAdmin | internal/middleware/auth.go:50-64 | with no roles listed only the super-admin passes |
| AuthMiddleware.MoreRolesAdmitMore | internal/middleware/auth.go:58-62 | listing more roles never turns an admitted role away |
| Invariants.CreateProposalKeepsConsistency | internal/app/conference/service/conference_service.go:95-129 | a successful proposal keeps ids unique, registrations pointing at conferences, seats respected and approved sessions disjoint |
| Invariants.UpdateKeepsConsistency | internal/app/conference/service/conference_service.go:246-289 | a successful content update keeps the store consistent: only pending sessions move |
| Invariants.ApprovedWasChecked | internal/app/conference/service/conference_service.go:375-400 | a successful approval leaves the session disjoint from every other live approved session |
| Invariants.StatusChangeKeepsConsistency | internal/app/conference/service/conference_service.go:366-412 | a successful status change keeps the store consistent, in particular no two live approved sessions overlap |
| Invariants.DeleteKeepsConsistency | internal/app/conference/service/conference_service.go:334-340 | a successful delete keeps the store consistent |
| Invariants.RegisterKeepsConsistency | internal/app/registration/service/registration_service.go:61-104 | a successful registration keeps the whole store consistent: conference ids stay unique, every registration names a stored conference, every live conference stays within its seats, and approved live sessions stay pairwise disjoint |
| Invariants.FeedbackKeepsConsistency | internal/app/feedback/service/feedback_service.go:73-86 | creating or deleting feedback keeps the store consistent |

## Left out

- Authentication flows, JWT, mail, Redis and SQL pools, configuration and the HTTP server: I/O and cryptography.
- RequireAuthenticated: it depends on the JWT library. Only the role gate of the middleware is modelled.
- The user service and repository: thin CRUD over storage and bcrypt.
- Random code generation: randomness and floating point.
- The error builder: the model uses a plain error datatype. The trace id and the detail payload are not modelled.
- HTTP handlers: parsing and validation only.
  - The handler sends `created_at` as the ordering, never `c.created_at`, so the repository's id-order branch is unreachable over HTTP. The model keeps that branch as written.
  - Only the handlers require at least one seat. The model lets a proposal carry any seat count, and the capacity invariant allows an empty conference with no seats.
- Check-then-write races between concurrent requests: the model is sequential, one request at a time.
- Time: each request reads the clock once. The source reads `time.Now()` and SQL `NOW()` separately at several points.
- Title search: `ILIKE` is modelled as ASCII case-insensitive substring match. LIKE wildcards inside the search text and non-ASCII case folding are not modelled.
- The inner joins with `users` on the host and on the feedback author are not modelled. Every host and author is assumed to have a user row.
- The users listing reads ids and names from the users table only.
- Ordering ties: SQL leaves rows with equal keys in any order. The model resolves ties with a stable sort, which is one of the allowed orders.
- RegistrationRepository.GetConflictingRegistrations: it returns the stored rows whole. The source selects only id, title, start and end, so the other fields of the listed entities are zero; the model uses only which conferences are listed.
- ConferenceDto.PopulateAll: maps each row on its own. This assumes Go 1.22 or later, where each loop iteration has its own variable; the module file that fixes the Go version is not part of this model. With earlier Go, the listing loops at internal/app/conference/service/conference_service.go:199-202 and internal/app/registration/service/registration_service.go:174-178 take addresses inside the one shared loop variable, so every response in a page would show the last row's start, end, creation and update times and seats taken.
- Conflict error payload: the model carries only the ids of the conflicting conferences. The source copies each description into the title field.
- Registration schema: it is not part of this model. A registration is a set member, so storing the same pair twice is idempotent.
- `IsUserRegisteredToConference` of the registration service: it is not part of this model. The feedback service's registration check is modelled as the repository's membership query, with a failed call answered by Internal.
- Feedback responses and the author's name are not modelled.
- The feedback creation time is stored as Go's zero time (`FeedbackService.ZeroTime`), because the service never sets it.
- RegistrationRepository.GetRegisteredUsersByConference, RegistrationRepository.GetRegisteredConferencesByUser, FeedbackRepository.GetFeedbacksByConferenceID and their service wrappers require a limit of at least one. With a limit of zero the source indexes an empty page after trimming and panics. The handlers only accept limits from 1 to 20.
- Several behaviours that the source's unit tests expect are absent from the code, so the model follows the code and does not assert them:
  - GetConferences does not reject two cursors.
  - Editing a rejected conference returns UpdateRejectedConference.
  - An approved conference that has not started may be rejected.
  - There is no one-feedback-per-user check.

Where the code and its written description disagree, the model follows the code:
- A before-cursor on the conference listing keeps the requested direction and is never reversed. It therefore yields the head of the ordering below the cursor, not the page next to the cursor.
- The status transition does not check the source status.
- The personal-conflict query uses closed intervals and ignores status.
- Soft deletes do not look at the deletion mark, so deleting twice succeeds.
- The registration count is described as computed by a join, and responses carry it as seats taken. No SELECT list names `registration_count`, so every conference read back has a count of zero and every response reports zero seats taken. The reads are modelled that way (`ConferenceRepository.Scanned`).
- An overflowing backward page of registrations, attended conferences or feedback drops the first fetched row, the one nearest the cursor, not the extra farthest one. The row just before the cursor is therefore on no backward page, and paging backward does not rebuild the forward listing. The repositories are modelled as written; the corrected trim and its round trip are stated in Paging (see Findings).

## Findings

| source | as written | input that shows it | evidently intended | confidence | as-written member | corrected member |
|---|---|---|---|---|---|---|
| internal/app/conference/service/conference_service.go:262 | the conflict query dereferences both requested times, although the guard above it only needs one of them | a pending session hosted by the requester, an update that names only a new start in a free slot; the dereference of the missing end panics and the request fails with an internal error | check the merged window, which the validations just before it have already checked | not executed | ConferenceService.UpdateConferenceAsWritten | ConferenceService.UpdateConference |
| internal/app/registration/repository/registration_repository.go:113-119 (also :214-231 and internal/app/feedback/repository/feedback_repository.go:118-135) | an overflowing backward page drops its first fetched row, the one nearest the cursor | three registrants with ids 1, 2, 3, limit 2, a before-cursor past id 3: the page is 1, 2 and has_more; the next page, before 1, is empty, so 3 is never listed | drop the extra farthest row, so that paging backward from the end rebuilds the forward listing | not executed | Paging.BackwardWalkAsWrittenLoses | Paging.KeysetPageCorrected |

=== FILE: auth_middleware.dfy ===
/** The role gate of internal/middleware/auth.go: RequireOneOfRoles. */
module AuthMiddleware {
  import opened Base
  import opened Domain

  /** A role passes the gate: the super-admin always, any other role when listed. */
  predicate Admitted(role: Role, roles: seq<Role>) {
    role == SuperAdmin || role in roles
  }

  /** RequireOneOfRoles: the role taken from the request context is compared
      with each listed role in turn. A context without a role fails the type
      assertion, which the recovery middleware turns into an internal error. */
  method RequireOneOfRoles(role: Option<Role>, roles: seq<Role>) returns (r: Result<(), Error>)
    ensures role.None? ==> r == Err(Internal)
    ensures role.Some? ==> (r.Ok? <==> Admitted(role.value, roles))
    ensures role.Some? && r.Err? ==> r.error == ForbiddenRole
  {
    if role.None? {
      return Err(Internal);
    }
    var userRole := role.value;
    if userRole == SuperAdmin {
      return Ok(());
    }
    var i := 0;
    while i < |roles|
      invariant 0 <= i <= |roles|
      invariant forall j :: 0 <= j < i ==> roles[j] != userRole
    {
      if roles[i] == userRole {
        return Ok(());
      }
      i := i + 1;
    }
    return Err(ForbiddenRole);
  }

  /** With no roles listed, only the super-admin passes. */
  lemma EmptyListAdmitsOnlySuperAdmin(role: Role)
    ensures Admitted(role, []) <==> role == SuperAdmin
  {
  }

  /** Listing more roles never turns anyone away. */
  lemma MoreRolesAdmitMore(role: Role, roles: seq<Role>, extra: seq<Role>)
    requires Admitted(role, roles)
    ensures Admitted(role, roles + extra) && Admitted(role, extra + roles)
  {
  }
}

=== FILE: base.dfy ===
/** Shared vocabulary: optional values, results, identifiers, time, and the
    sequence operations (filter, take, reverse) that every query is built from. */
module Base {

  /** A value that may be absent (a nil pointer). */
  datatype Option<+T> = None | Some(value: T)

  /** The outcome of an operation that can fail with an error of type E. */
  datatype Result<+T, +E> = Ok(value: T) | Err(error: E)

  /** Identifiers are time-sortable UUIDs; only their order matters here. */
  type Id = nat

  /** The all-zero UUID, used by the listing queries to mean "no cursor". */
  const Nil: Id := 0

  /** Timestamps are compared, never decomposed. */
  type Time = int

  function Min(a: int, b: int): int {
    if a <= b then a else b
  }

  /** The elements of `s` that satisfy `p`, in their original order. */
  function Filter<T(!new)>(s: seq<T>, p: T -> bool): (r: seq<T>)
    ensures |r| <= |s|
    ensures forall x :: x in r <==> x in s && p(x)
    ensures multiset(r) <= multiset(s)
  {
    if |s| == 0 then []
    else
      assert s == [s[0]] + s[1..];
      var rest := Filter(s[1..], p);
      if p(s[0]) then [s[0]] + rest else rest
  }

  /** The first `n` elements of `s` (all of them if there are fewer): SQL LIMIT. */
  function Take<T>(s: seq<T>, n: nat): seq<T> {
    s[..Min(n, |s|)]
  }

  /** `s` back to front. */
  function Reverse<T>(s: seq<T>): (r: seq<T>)
    ensures |r| == |s|
    ensures forall i :: 0 <= i < |s| ==> r[i] == s[|s| - 1 - i]
  {
    seq(|s|, i requires 0 <= i < |s| => s[|s| - 1 - i])
  }

  /** Reversal loses and invents nothing. */
  lemma ReverseSameElements<T(!new)>(s: seq<T>)
    ensures forall x :: x in Reverse(s) <==> x in s
  {
    var r := Reverse(s);
    forall x | x in s ensures x in r {
      var i :| 0 <= i < |s| && s[i] == x;
      assert r[|s| - 1 - i] == x;
    }
  }

  /** Reversal is a permutation. */
  lemma {:induction false} ReversePermutes<T>(s: seq<T>)
    ensures multiset(Reverse(s)) == multiset(s)
  {
    if |s| > 0 {
      ReversePermutes(s[1..]);
      assert Reverse(s) == Reverse(s[1..]) + [s[0]];
      assert s == [s[0]] + s[1..];
    }
  }

  /** A prefix holds no row the whole sequence does not. */
  lemma PrefixSubMultiset<T>(s: seq<T>, k: nat)
    requires k <= |s|
    ensures multiset(s[..k]) <= multiset(s)
  {
    assert s == s[..k] + s[k..];
  }

  /** A slice of the reversal, reversed again, is the mirrored slice. */
  lemma ReverseOfReversedSlice<T>(s: seq<T>, a: nat, b: nat)
    requires a <= b <= |s|
    ensures Reverse(Reverse(s)[a..b]) == s[|s| - b..|s| - a]
  {
    var kept := Reverse(s)[a..b];
    var r := Reverse(kept);
    forall i | 0 <= i < b - a ensures r[i] == s[|s| - b + i] {
      assert r[i] == kept[b - a - 1 - i];
      assert kept[b - a - 1 - i] == Reverse(s)[b - 1 - i];
    }
  }

  /** Reversing twice gives the sequence back. */
  lemma ReverseTwice<T>(s: seq<T>)
    ensures Reverse(Reverse(s)) == s
  {
    var r := Reverse(Reverse(s));
    assert forall i :: 0 <= i < |s| ==> r[i] == Reverse(s)[|s| - 1 - i] == s[i];
  }

  /** A filter nothing passes keeps nothing. */
  lemma {:induction false} NothingPasses<T(!new)>(s: seq<T>, p: T -> bool)
    requires forall i :: 0 <= i < |s| ==> !p(s[i])
    ensures Filter(s, p) == []
  {
    if |s| > 0 {
      NothingPasses(s[1..], p);
    }
  }
}

=== FILE: conference_dto.dfy ===
/** Request and response shapes of the conference service
    (domain/dto/conference_dto.go): the proposal request, the list query, the
    partial update and its field-by-field merge, and the response projection. */
module ConferenceDto {
  import opened Base
  import opened Ordering
  import opened Domain

  /** CreateConferenceProposalRequest. */
  datatype ProposalRequest = ProposalRequest(
    title: string,
    description: string,
    speakerName: string,
    speakerTitle: string,
    targetAudience: string,
    prerequisites: Option<string>,
    seats: int,
    startsAt: Time,
    endsAt: Time)

  /** The sort column a list query names. The handler sends `created_at` or
      `starts_at`; the repository's id-order branch is taken only for the
      qualified spelling `c.created_at`. */
  datatype OrderBy = CreatedAt | StartsAt | QualifiedCreatedAt

  /** GetConferenceQuery: filters, cursors and ordering of a conference listing. */
  datatype ConferenceQuery = ConferenceQuery(
    afterId: Option<Id>,
    beforeId: Option<Id>,
    limit: nat,
    hostId: Option<Id>,
    status: Status,
    startsBefore: Option<Time>,
    startsAfter: Option<Time>,
    includePast: bool,
    orderBy: OrderBy,
    order: Direction,
    title: Option<string>)

  /** UpdateConferenceRequest: every field is optional; absent means "keep". */
  datatype UpdateRequest = UpdateRequest(
    title: Option<string>,
    description: Option<string>,
    speakerName: Option<string>,
    speakerTitle: Option<string>,
    targetAudience: Option<string>,
    prerequisites: Option<string>,
    startsAt: Option<Time>,
    endsAt: Option<Time>)

  /** The request that changes nothing. */
  const NoChange := UpdateRequest(None, None, None, None, None, None, None, None)

  function Pick<T>(requested: Option<T>, current: T): T {
    if requested.Some? then requested.value else current
  }

  /** GenerateUpdateEntity: overwrite each field the request supplies. */
  function Merge(c: Conference, req: UpdateRequest): (r: Conference)
    // supplied fields take the request's value
    ensures req.title.Some? ==> r.title == req.title.value
    ensures req.description.Some? ==> r.description == req.description.value
    ensures req.speakerName.Some? ==> r.speakerName == req.speakerName.value
    ensures req.speakerTitle.Some? ==> r.speakerTitle == req.speakerTitle.value
    ensures req.targetAudience.Some? ==> r.targetAudience == req.targetAudience.value
    ensures req.prerequisites.Some? ==> r.prerequisites == req.prerequisites
    ensures req.startsAt.Some? ==> r.startsAt == req.startsAt.value
    ensures req.endsAt.Some? ==> r.endsAt == req.endsAt.value
    // absent fields keep the entity's value
    ensures req.title.None? ==> r.title == c.title
    ensures req.description.None? ==> r.description == c.description
    ensures req.speakerName.None? ==> r.speakerName == c.speakerName
    ensures req.speakerTitle.None? ==> r.speakerTitle == c.speakerTitle
    ensures req.targetAudience.None? ==> r.targetAudience == c.targetAudience
    ensures req.prerequisites.None? ==> r.prerequisites == c.prerequisites
    ensures req.startsAt.None? ==> r.startsAt == c.startsAt
    ensures req.endsAt.None? ==> r.endsAt == c.endsAt
    // fields the request cannot name never change
    ensures r.id == c.id && r.seats == c.seats && r.hostId == c.hostId && r.status == c.status
    ensures r.createdAt == c.createdAt && r.updatedAt == c.updatedAt && r.deletedAt == c.deletedAt
    ensures r.registrationCount == c.registrationCount
  {
    c.(title := Pick(req.title, c.title),
       description := Pick(req.description, c.description),
       speakerName := Pick(req.speakerName, c.speakerName),
       speakerTitle := Pick(req.speakerTitle, c.speakerTitle),
       targetAudience := Pick(req.targetAudience, c.targetAudience),
       prerequisites := if req.prerequisites.Some? then req.prerequisites else c.prerequisites,
       startsAt := Pick(req.startsAt, c.startsAt),
       endsAt := Pick(req.endsAt, c.endsAt))
  }

  /** Applying `first` and then `second`, as one request: later values win. */
  function Then(first: UpdateRequest, second: UpdateRequest): UpdateRequest {
    UpdateRequest(
      if second.title.Some? then second.title else first.title,
      if second.description.Some? then second.description else first.description,
      if second.speakerName.Some? then second.speakerName else first.speakerName,
      if second.speakerTitle.Some? then second.speakerTitle else first.speakerTitle,
      if second.targetAudience.Some? then second.targetAudience else first.targetAudience,
      if second.prerequisites.Some? then second.prerequisites else first.prerequisites,
      if second.startsAt.Some? then second.startsAt else first.startsAt,
      if second.endsAt.Some? then second.endsAt else first.endsAt)
  }

  /** Merging is idempotent: a second application of the same request changes nothing. */
  lemma MergeIdempotent(c: Conference, req: UpdateRequest)
    ensures Merge(Merge(c, req), req) == Merge(c, req)
  {
  }

  /** The empty request is the identity. */
  lemma MergeNoChange(c: Conference)
    ensures Merge(c, NoChange) == c
  {
  }

  /** Two merges in a row equal one merge of the combined request. */
  lemma MergeThen(c: Conference, first: UpdateRequest, second: UpdateRequest)
    ensures Merge(Merge(c, first), second) == Merge(c, Then(first, second))
  {
  }

  /** A request that supplies a time field changes the window only through that
      field; one that supplies none leaves the window as it was. */
  lemma MergeWindow(c: Conference, req: UpdateRequest)
    ensures req.startsAt.None? && req.endsAt.None? ==> Merge(c, req).startsAt == c.startsAt && Merge(c, req).endsAt == c.endsAt
    ensures req.startsAt.Some? && req.endsAt.Some? ==> Merge(c, req).startsAt == req.startsAt.value && Merge(c, req).endsAt == req.endsAt.value
  {
  }

  /** ConferenceResponse: what the service hands back for one conference. */
  datatype ConferenceResponse = ConferenceResponse(
    id: Id,
    title: string,
    description: string,
    speakerName: string,
    speakerTitle: string,
    targetAudience: string,
    prerequisites: Option<string>,
    seats: int,
    startsAt: Time,
    endsAt: Time,
    hostId: Id,
    status: Status,
    createdAt: Time,
    updatedAt: Time,
    seatsTaken: int)

  /** PopulateFromEntity: every shown column of the entity, copied verbatim. */
  function Populate(c: Conference): (r: ConferenceResponse)
    ensures r.id == c.id && r.status == c.status && r.hostId == c.hostId
    ensures r.title == c.title && r.description == c.description
    ensures r.speakerName == c.speakerName && r.speakerTitle == c.speakerTitle
    ensures r.targetAudience == c.targetAudience && r.prerequisites == c.prerequisites
    ensures r.seats == c.seats && r.startsAt == c.startsAt && r.endsAt == c.endsAt
    ensures r.seatsTaken == c.registrationCount
  {
    ConferenceResponse(c.id, c.title, c.description, c.speakerName, c.speakerTitle,
                       c.targetAudience, c.prerequisites, c.seats, c.startsAt, c.endsAt,
                       c.hostId, c.status, c.createdAt, c.updatedAt, c.registrationCount)
  }

  /** The partial update applied to a response instead of an entity. The
      service never merges responses; this exists only as the other side of
      PopulateCommutesWithMerge. */
  function MergeResponse(r: ConferenceResponse, req: UpdateRequest): ConferenceResponse {
    r.(title := Pick(req.title, r.title),
       description := Pick(req.description, r.description),
       speakerName := Pick(req.speakerName, r.speakerName),
       speakerTitle := Pick(req.speakerTitle, r.speakerTitle),
       targetAudience := Pick(req.targetAudience, r.targetAudience),
       prerequisites := if req.prerequisites.Some? then req.prerequisites else r.prerequisites,
       startsAt := Pick(req.startsAt, r.startsAt),
       endsAt := Pick(req.endsAt, r.endsAt))
  }

  /** The response carries every field a partial update can change: merging
      and then projecting equals projecting and then merging the response. */
  lemma PopulateCommutesWithMerge(c: Conference, req: UpdateRequest)
    ensures Populate(Merge(c, req)) == MergeResponse(Populate(c), req)
  {
  }

  function PopulateAll(cs: seq<Conference>): seq<ConferenceResponse> {
    seq(|cs|, i requires 0 <= i < |cs| => Populate(cs[i]))
  }

  /** Entities read without a registration count show no seat taken. */
  lemma NoCountNoSeatsTaken(cs: seq<Conference>)
    requires forall c :: c in cs ==> c.registrationCount == 0
    ensures forall x :: x in PopulateAll(cs) ==> x.seatsTaken == 0
  {
    forall x | x in PopulateAll(cs) ensures x.seatsTaken == 0 {
      var i :| 0 <= i < |cs| && PopulateAll(cs)[i] == x;
      assert cs[i] in cs;
    }
  }
}

=== FILE: conference_repository.dfy ===
/** The conference repository (internal/app/conference/repository/conference_repository.go):
    lookup by id, the filtered keyset listing, create, update, soft delete and
    the approved-session conflict query, over the `conferences` table. */
module ConferenceRepository {
  import opened Base
  import opened Ordering
  import opened Domain
  import opened ConferenceDto
  import opened Paging

  // ---------------------------------------------------------------------------
  // Conflict detection
  // ---------------------------------------------------------------------------

  /** Half-open interval overlap: [aStart, aEnd) meets [bStart, bEnd).
      Windows that only touch at an end point do not overlap. */
  predicate Overlaps(aStart: Time, aEnd: Time, bStart: Time, bEnd: Time) {
    aStart < bEnd && aEnd > bStart
  }

  /** The WHERE clause of GetConferencesConflictingWithTime. */
  predicate ConflictsWith(c: Conference, startsAt: Time, endsAt: Time, excludeId: Id) {
    && c.deletedAt.None?
    && c.id != excludeId
    && c.status == Approved
    && c.startsAt < endsAt
    && c.endsAt > startsAt
  }

  /** The approved, live sessions other than `excludeId` whose window overlaps
      [startsAt, endsAt), ordered by start, at most ten of them. */
  function Conflicting(rows: seq<Conference>, startsAt: Time, endsAt: Time, excludeId: Id): (r: seq<Conference>)
    ensures |r| <= 10
    ensures |r| == Min(10, |Filter(rows, c => ConflictsWith(c, startsAt, endsAt, excludeId))|)
    ensures forall c :: c in r ==> c in rows && ConflictsWith(c, startsAt, endsAt, excludeId)
    ensures multiset(r) <= multiset(Filter(rows, c => ConflictsWith(c, startsAt, endsAt, excludeId)))
    ensures forall c :: c in r ==> Overlaps(c.startsAt, c.endsAt, startsAt, endsAt)
    ensures Sorted(r, StartsAtKey, Asc)
    // the earliest ten: no conflict left out starts before one returned
    ensures forall x, y :: x in r && y in rows && ConflictsWith(y, startsAt, endsAt, excludeId) && y !in r ==>
      x.startsAt <= y.startsAt
    ensures r == [] <==> forall c :: c in rows ==> !ConflictsWith(c, startsAt, endsAt, excludeId)
  {
    var matching := Filter(rows, c => ConflictsWith(c, startsAt, endsAt, excludeId));
    var ordered := Sort(matching, StartsAtKey, Asc);
    var r := Take(ordered, 10);
    EarliestFirst(ordered, 10);
    assert |r| > 0 ==> r[0] in ordered;
    assert |ordered| > 0 ==> ordered[0] in r;
    r
  }

  /** The head of a sequence sorted by start is part of it and precedes
      everything after it. */
  lemma EarliestFirst(ordered: seq<Conference>, n: nat)
    requires Sorted(ordered, StartsAtKey, Asc)
    ensures multiset(Take(ordered, n)) <= multiset(ordered)
    ensures forall x, y :: x in Take(ordered, n) && y in ordered && y !in Take(ordered, n) ==> x.startsAt <= y.startsAt
  {
    PrefixSubMultiset(ordered, Min(n, |ordered|));
    PrefixPrecedesRest(ordered, StartsAtKey, Asc, Min(n, |ordered|));
  }

  function GetConflictingWithTime(st: Store, startsAt: Time, endsAt: Time, excludeId: Id, faults: set<Call>)
    : (r: Result<seq<Conference>, DbError>)
    ensures r.Err? <==> ConferenceConflicts in faults
    ensures r.Err? ==> r.error == DriverFailure
    ensures r.Ok? ==> (|r.value| > 0 <==> exists c :: c in st.conferences && ConflictsWith(c, startsAt, endsAt, excludeId))
    ensures r.Ok? ==> forall c :: c in r.value ==>
      c.registrationCount == 0 && ConflictsWith(c, startsAt, endsAt, excludeId) && exists row :: row in st.conferences && c == Scanned(row)
  {
    if ConferenceConflicts in faults then Err(DriverFailure)
    else
      ScannedMembers(st.conferences);
      Ok(Conflicting(ScannedRows(st.conferences), startsAt, endsAt, excludeId))
  }

  /** Overlap does not depend on which window is named first. */
  lemma OverlapsSymmetric(aStart: Time, aEnd: Time, bStart: Time, bEnd: Time)
    ensures Overlaps(aStart, aEnd, bStart, bEnd) <==> Overlaps(bStart, bEnd, aStart, aEnd)
  {
  }

  // ---------------------------------------------------------------------------
  // Reading rows back
  // ---------------------------------------------------------------------------

  /** A row as the reads scan it. No SELECT list of the repositories names
      registration_count, so the entity keeps the integer zero there; every
      other field is the stored column. */
  function Scanned(c: Conference): (r: Conference)
    ensures r.registrationCount == 0
    ensures r.(registrationCount := c.registrationCount) == c
  {
    c.(registrationCount := 0)
  }

  /** The table as the reads scan it, row by row in table order. */
  function ScannedRows(rows: seq<Conference>): (r: seq<Conference>)
    ensures |r| == |rows|
    ensures forall i :: 0 <= i < |rows| ==> r[i] == Scanned(rows[i])
    ensures forall c :: c in r ==> c.registrationCount == 0
  {
    seq(|rows|, i requires 0 <= i < |rows| => Scanned(rows[i]))
  }

  /** Scanning keeps every row and adds none: a scanned row comes from a
      stored one, and every stored row is read back. */
  lemma ScannedMembers(rows: seq<Conference>)
    ensures forall c :: c in rows ==> Scanned(c) in ScannedRows(rows)
    ensures forall c :: c in ScannedRows(rows) ==> exists row :: row in rows && c == Scanned(row)
  {
    forall c | c in rows ensures Scanned(c) in ScannedRows(rows) {
      var i :| 0 <= i < |rows| && rows[i] == c;
      assert ScannedRows(rows)[i] == Scanned(c);
    }
    forall c | c in ScannedRows(rows) ensures exists row :: row in rows && c == Scanned(row) {
      var i :| 0 <= i < |rows| && ScannedRows(rows)[i] == c;
      assert rows[i] in rows;
    }
  }

  // ---------------------------------------------------------------------------
  // Lookup by id
  // ---------------------------------------------------------------------------

  /** The first live (not soft-deleted) row with the id. */
  function FindLive(rows: seq<Conference>, id: Id): (r: Option<Conference>)
    ensures r.Some? ==> r.value in rows && r.value.id == id && r.value.deletedAt.None?
    ensures r.None? <==> forall c :: c in rows ==> c.id != id || c.deletedAt.Some?
  {
    if |rows| == 0 then None
    else if rows[0].id == id && rows[0].deletedAt.None? then Some(rows[0])
    else
      assert rows == [rows[0]] + rows[1..];
      FindLive(rows[1..], id)
  }

  /** GetConferenceByID: never returns a soft-deleted row, and returns the row
      as scanned, without its registration count. */
  function GetConferenceById(st: Store, id: Id, faults: set<Call>): (r: Result<Conference, DbError>)
    ensures ConferenceById in faults ==> r == Err(DriverFailure)
    ensures ConferenceById !in faults ==>
      (r == Err(NoRows) <==> forall c :: c in st.conferences ==> c.id != id || c.deletedAt.Some?)
    ensures r.Ok? ==> r.value.id == id && r.value.deletedAt.None? && r.value.registrationCount == 0
    ensures r.Ok? ==> exists c :: c in st.conferences && r.value == Scanned(c)
  {
    if ConferenceById in faults then Err(DriverFailure)
    else match FindLive(st.conferences, id)
      case None => Err(NoRows)
      case Some(c) => Ok(Scanned(c))
  }

  // ---------------------------------------------------------------------------
  // Writes
  // ---------------------------------------------------------------------------

  /** Whether any row, live or deleted, has the id. */
  predicate HasRow(rows: seq<Conference>, id: Id) {
    exists c :: c in rows && c.id == id
  }

  /** The row INSERT stores: the listed columns from `c`, timestamps from the
      store's defaults, not deleted. */
  function Inserted(c: Conference, now: Time): Conference {
    c.(createdAt := now, updatedAt := now, deletedAt := None, registrationCount := 0)
  }

  /** CreateConference: a second row with an existing primary key is refused. */
  function CreateConference(st: Store, c: Conference, now: Time, faults: set<Call>): (r: Result<Store, DbError>)
    ensures r.Ok? <==> ConferenceCreate !in faults && !HasRow(st.conferences, c.id)
    ensures r.Err? ==> r.error == DriverFailure
    ensures r.Ok? ==> r.value == st.(conferences := st.conferences + [Inserted(c, now)])
  {
    if ConferenceCreate in faults || HasRow(st.conferences, c.id) then Err(DriverFailure)
    else Ok(st.(conferences := st.conferences + [Inserted(c, now)]))
  }

  /** The row `UPDATE ... WHERE id = :id` leaves: every listed column from `c`,
      `updated_at` refreshed, the id, creation time and deletion mark kept. */
  function Overwritten(row: Conference, c: Conference, now: Time): Conference {
    row.(title := c.title, description := c.description, speakerName := c.speakerName,
         speakerTitle := c.speakerTitle, targetAudience := c.targetAudience,
         prerequisites := c.prerequisites, seats := c.seats, startsAt := c.startsAt,
         endsAt := c.endsAt, hostId := c.hostId, status := c.status, updatedAt := now)
  }

  function UpdateRows(rows: seq<Conference>, c: Conference, now: Time): seq<Conference> {
    seq(|rows|, i requires 0 <= i < |rows| => if rows[i].id == c.id then Overwritten(rows[i], c, now) else rows[i])
  }

  /** UpdateConference: NoRows when no row has the id (deleted rows included,
      the statement does not filter on deleted_at). */
  function UpdateConference(st: Store, c: Conference, now: Time, faults: set<Call>): (r: Result<Store, DbError>)
    ensures ConferenceUpdate in faults ==> r == Err(DriverFailure)
    ensures ConferenceUpdate !in faults ==> (r == Err(NoRows) <==> !HasRow(st.conferences, c.id))
    ensures r.Ok? ==> r.value.registrations == st.registrations && r.value.feedbacks == st.feedbacks && r.value.users == st.users
    ensures r.Ok? ==> |r.value.conferences| == |st.conferences|
    ensures r.Ok? ==> forall i :: 0 <= i < |st.conferences| && st.conferences[i].id != c.id ==>
      r.value.conferences[i] == st.conferences[i]
    ensures r.Ok? ==> forall i :: 0 <= i < |st.conferences| && st.conferences[i].id == c.id ==>
      r.value.conferences[i] ==
        st.conferences[i].(title := c.title, description := c.description, speakerName := c.speakerName,
                           speakerTitle := c.speakerTitle, targetAudience := c.targetAudience,
                           prerequisites := c.prerequisites, seats := c.seats, startsAt := c.startsAt,
                           endsAt := c.endsAt, hostId := c.hostId, status := c.status, updatedAt := now)
  {
    if ConferenceUpdate in faults then Err(DriverFailure)
    else if !HasRow(st.conferences, c.id) then Err(NoRows)
    else Ok(st.(conferences := UpdateRows(st.conferences, c, now)))
  }

  function SoftDeleteRows(rows: seq<Conference>, id: Id, now: Time): seq<Conference> {
    seq(|rows|, i requires 0 <= i < |rows| => if rows[i].id == id then rows[i].(deletedAt := Some(now)) else rows[i])
  }

  /** DeleteConference: marks every row with the id deleted at `now`. It does not
      look at deleted_at, so deleting a deleted conference succeeds again. */
  function DeleteConference(st: Store, id: Id, now: Time, faults: set<Call>): (r: Result<Store, DbError>)
    ensures ConferenceDelete in faults ==> r == Err(DriverFailure)
    ensures ConferenceDelete !in faults ==> (r == Err(NoRows) <==> !HasRow(st.conferences, id))
    ensures r.Ok? ==> r.value.registrations == st.registrations && r.value.feedbacks == st.feedbacks && r.value.users == st.users
    ensures r.Ok? ==> |r.value.conferences| == |st.conferences|
    ensures r.Ok? ==> forall i :: 0 <= i < |st.conferences| ==>
      r.value.conferences[i] ==
        if st.conferences[i].id == id then st.conferences[i].(deletedAt := Some(now)) else st.conferences[i]
  {
    if ConferenceDelete in faults then Err(DriverFailure)
    else if !HasRow(st.conferences, id) then Err(NoRows)
    else Ok(st.(conferences := SoftDeleteRows(st.conferences, id, now)))
  }

  /** Deleting twice succeeds, and afterwards the lookup finds nothing. */
  lemma DeleteTwice(st: Store, id: Id, now: Time, later: Time, faults: set<Call>)
    requires ConferenceDelete !in faults && ConferenceById !in faults
    requires DeleteConference(st, id, now, faults).Ok?
    ensures DeleteConference(DeleteConference(st, id, now, faults).value, id, later, faults).Ok?
    ensures GetConferenceById(DeleteConference(st, id, now, faults).value, id, faults) == Err(NoRows)
  {
    var st' := DeleteConference(st, id, now, faults).value;
    var c :| c in st.conferences && c.id == id;
    var i :| 0 <= i < |st.conferences| && st.conferences[i] == c;
    assert st'.conferences[i].id == id;
    forall d | d in st'.conferences ensures d.id != id || d.deletedAt.Some? {
      var j :| 0 <= j < |st'.conferences| && st'.conferences[j] == d;
    }
  }

  // ---------------------------------------------------------------------------
  // Filtered listing
  // ---------------------------------------------------------------------------

  function FoldChar(c: char): char {
    if 'A' <= c <= 'Z' then (c as int + 32) as char else c
  }

  function Fold(s: string): string {
    seq(|s|, i requires 0 <= i < |s| => FoldChar(s[i]))
  }

  /** `pattern` occurs in `text` at offset `i`, ignoring ASCII case. */
  predicate OccursAt(text: string, pattern: string, i: int) {
    0 <= i && i + |pattern| <= |text| && Fold(text[i..i + |pattern|]) == Fold(pattern)
  }

  /** `title ILIKE '%' || pattern || '%'`, with ASCII case folding. */
  predicate ContainsIgnoringCase(text: string, pattern: string) {
    exists i | 0 <= i <= |text| - |pattern| :: OccursAt(text, pattern, i)
  }

  /** The value filters of GetConferences. */
  predicate PassesFilters(c: Conference, q: ConferenceQuery, now: Time) {
    && c.deletedAt.None?
    && (q.includePast || c.endsAt > now)
    && (q.title.None? || ContainsIgnoringCase(c.title, q.title.value))
    && (q.hostId.None? || c.hostId == q.hostId.value)
    && c.status == q.status
    && (q.startsBefore.None? || c.startsAt < q.startsBefore.value)
    && (q.startsAfter.None? || c.startsAt > q.startsAfter.value)
  }

  /** `SELECT c.starts_at, c.id FROM conferences c WHERE c.id = $n`: the
      cursor row's key, read from any row with the id, deleted or not. */
  function CursorKey(rows: seq<Conference>, id: Id): (r: Option<Key>)
    ensures r.Some? ==> exists c :: c in rows && c.id == id && StartsAtIdKey(c) == r.value
    ensures r.None? ==> !HasRow(rows, id)
  {
    if |rows| == 0 then None
    else if rows[0].id == id then Some(StartsAtIdKey(rows[0]))
    else
      assert rows == [rows[0]] + rows[1..];
      CursorKey(rows[1..], id)
  }

  /** The composite cursor conditions `(c.starts_at, c.id) > / < (cursor row)`.
      An after-cursor keeps rows past the cursor in the requested direction, a
      before-cursor rows short of it. A missing cursor row compares as SQL NULL
      and keeps nothing. */
  predicate PassesCursors(rows: seq<Conference>, c: Conference, q: ConferenceQuery) {
    && (q.afterId.None? ||
        (var k := CursorKey(rows, q.afterId.value);
         k.Some? && (if q.order == Desc then KeyLt(StartsAtIdKey(c), k.value) else KeyLt(k.value, StartsAtIdKey(c)))))
    && (q.beforeId.None? ||
        (var k := CursorKey(rows, q.beforeId.value);
         k.Some? && (if q.order == Desc then KeyLt(k.value, StartsAtIdKey(c)) else KeyLt(StartsAtIdKey(c), k.value))))
  }

  predicate Selected(rows: seq<Conference>, c: Conference, q: ConferenceQuery, now: Time) {
    PassesFilters(c, q, now) && PassesCursors(rows, c, q)
  }

  /** Every row the listing query selects, before ordering and LIMIT. */
  function Matching(rows: seq<Conference>, q: ConferenceQuery, now: Time): (r: seq<Conference>)
    ensures forall c :: c in r <==> c in rows && Selected(rows, c, q, now)
  {
    Filter(rows, c => Selected(rows, c, q, now))
  }

  /** The ORDER BY key: id alone for `c.created_at`, (starts_at, id) otherwise. */
  function ListKey(orderBy: OrderBy): Conference -> Key {
    if orderBy == QualifiedCreatedAt then IdKey else StartsAtIdKey
  }

  /** In the `c.created_at` branch the cursor condition names a bare `id`, which
      both joined tables (conferences and users) have: the store rejects the
      statement as ambiguous. */
  predicate AmbiguousCursor(q: ConferenceQuery) {
    q.orderBy == QualifiedCreatedAt && (q.afterId.Some? || q.beforeId.Some?)
  }

  /** GetConferences: filter the scanned rows, order, fetch `limit + 1`, drop
      the extra row. */
  function GetConferences(st: Store, q: ConferenceQuery, now: Time, faults: set<Call>)
    : (r: Result<(seq<Conference>, PageInfo), DbError>)
    ensures r.Ok? <==> ConferenceList !in faults && !AmbiguousCursor(q)
    ensures r.Err? ==> r.error == DriverFailure
    ensures r.Ok? ==> |r.value.0| == Min(q.limit, |Matching(ScannedRows(st.conferences), q, now)|)
    ensures r.Ok? ==> forall c :: c in r.value.0 ==>
      c in ScannedRows(st.conferences) && c.registrationCount == 0 && Selected(ScannedRows(st.conferences), c, q, now)
    ensures r.Ok? ==> multiset(r.value.0) <= multiset(Matching(ScannedRows(st.conferences), q, now))
    ensures r.Ok? ==> Sorted(r.value.0, ListKey(q.orderBy), q.order)
    ensures r.Ok? ==> forall x, y :: x in r.value.0 && y in Matching(ScannedRows(st.conferences), q, now) && y !in r.value.0 ==>
      InOrder(ListKey(q.orderBy)(x), ListKey(q.orderBy)(y), q.order)
    ensures r.Ok? ==> (r.value.1.hasMore <==> |Matching(ScannedRows(st.conferences), q, now)| > q.limit)
    ensures r.Ok? ==> DescribesPage(r.value.1, r.value.0, ConferenceId)
  {
    if ConferenceList in faults || AmbiguousCursor(q) then Err(DriverFailure)
    else
      var matching := Matching(ScannedRows(st.conferences), q, now);
      var ordered := Sort(matching, ListKey(q.orderBy), q.order);
      var (page, more) := ListPage(ordered, q.limit);
      SortedListPage(matching, ListKey(q.orderBy), q.order, q.limit);
      Ok((page, Envelope(page, more, ConferenceId)))
  }
}

=== FILE: conference_service.dfy ===
/** The conference service (internal/app/conference/service/conference_service.go):
    proposal creation, read visibility, listing with host-filter narrowing,
    host-only content update, deletion and status transition. Each operation
    takes the store, the requester and the current time explicitly and returns
    either an error or its result together with the new store. */
module ConferenceService {
  import opened Base
  import opened Ordering
  import opened Domain
  import opened ConferenceDto
  import Repo = ConferenceRepository

  /** How every operation reports a failed lookup by id. */
  function LookupError(e: DbError): Error {
    if e == NoRows then NotFound else Internal
  }

  /** Some live, approved session other than `excludeId` overlaps the window. */
  predicate AnyConflict(st: Store, startsAt: Time, endsAt: Time, excludeId: Id) {
    exists c :: c in st.conferences && Repo.ConflictsWith(c, startsAt, endsAt, excludeId)
  }

  // ---------------------------------------------------------------------------
  // GetConferenceByID
  // ---------------------------------------------------------------------------

  /** A plain user who does not host a non-approved conference may not see it. */
  predicate HiddenFrom(p: Principal, c: Conference) {
    p.role == Some(User) && c.hostId != p.IdOrNil() && c.status != Approved
  }

  function GetConferenceById(st: Store, p: Principal, id: Id, faults: set<Call>): (r: Result<ConferenceResponse, Error>)
    ensures var row := Repo.GetConferenceById(st, id, faults);
      && (row.Err? ==> r == Err(LookupError(row.error)))
      && (row.Ok? ==> (r == Err(ForbiddenUser) <==> HiddenFrom(p, row.value)))
      && (row.Ok? && !HiddenFrom(p, row.value) ==> r == Ok(Populate(row.value)))
    ensures r.Ok? ==> r.value.id == id && (r.value.status == Approved || !p.IsUser() || r.value.hostId == p.IdOrNil())
    // the lookup does not read the registration count
    ensures r.Ok? ==> r.value.seatsTaken == 0
  {
    match Repo.GetConferenceById(st, id, faults)
    case Err(e) => Err(LookupError(e))
    case Ok(c) => if HiddenFrom(p, c) then Err(ForbiddenUser) else Ok(Populate(c))
  }

  /** Coordinators, admins and callers without a role see every status. */
  lemma NonUsersSeeEverything(st: Store, p: Principal, id: Id, faults: set<Call>)
    requires p.role != Some(User)
    requires Repo.GetConferenceById(st, id, faults).Ok?
    ensures GetConferenceById(st, p, id, faults).Ok?
  {
  }

  // ---------------------------------------------------------------------------
  // GetConferences
  // ---------------------------------------------------------------------------

  /** A plain user listing non-approved conferences is confined to their own:
      an absent host filter becomes the requester, a different host is refused,
      and every other query passes through unchanged. */
  function NarrowQuery(p: Principal, q: ConferenceQuery): (r: Result<ConferenceQuery, Error>)
    ensures q.status != Approved && p.IsUser() && q.hostId.None? ==> r == Ok(q.(hostId := Some(p.IdOrNil())))
    ensures q.status != Approved && p.IsUser() && q.hostId.Some? && q.hostId.value != p.IdOrNil() ==> r == Err(ForbiddenUser)
    ensures q.status == Approved || !p.IsUser() || q.hostId == Some(p.IdOrNil()) ==> r == Ok(q)
    ensures r.Ok? && q.status != Approved && p.IsUser() ==> r.value.hostId == Some(p.IdOrNil())
  {
    if q.status != Approved && p.IsUser() then
      if q.hostId.None? then Ok(q.(hostId := Some(p.IdOrNil())))
      else if q.hostId.value != p.IdOrNil() then Err(ForbiddenUser)
      else Ok(q)
    else Ok(q)
  }

  function GetConferences(st: Store, p: Principal, q: ConferenceQuery, now: Time, faults: set<Call>)
    : (r: Result<(seq<ConferenceResponse>, PageInfo), Error>)
    ensures NarrowQuery(p, q).Err? ==> r == Err(ForbiddenUser)
    ensures NarrowQuery(p, q).Ok? ==>
      var page := Repo.GetConferences(st, NarrowQuery(p, q).value, now, faults);
      && (page.Err? ==> r == Err(Internal))
      && (page.Ok? ==> r == Ok((PopulateAll(page.value.0), page.value.1)))
    // the listing does not read the registration count
    ensures r.Ok? ==> forall x :: x in r.value.0 ==> x.seatsTaken == 0
  {
    match NarrowQuery(p, q)
    case Err(e) => Err(e)
    case Ok(q') =>
      match Repo.GetConferences(st, q', now, faults)
      case Err(_) => Err(Internal)
      case Ok((rows, info)) =>
        NoCountNoSeatsTaken(rows);
        Ok((PopulateAll(rows), info))
  }

  /** Refusing a foreign host filter reads nothing: the outcome is the same
      whatever the store holds and whichever calls would fail. */
  lemma ForeignHostFilterReadsNothing(st1: Store, st2: Store, p: Principal, q: ConferenceQuery,
                                      now: Time, faults1: set<Call>, faults2: set<Call>)
    requires q.status != Approved && p.IsUser() && q.hostId.Some? && q.hostId.value != p.IdOrNil()
    ensures GetConferences(st1, p, q, now, faults1) == GetConferences(st2, p, q, now, faults2) == Err(ForbiddenUser)
  {
  }

  /** A plain user listing non-approved conferences only ever sees their own. */
  lemma UsersSeeOnlyOwnUnapproved(st: Store, p: Principal, q: ConferenceQuery, now: Time, faults: set<Call>)
    requires p.IsUser() && q.status != Approved
    requires GetConferences(st, p, q, now, faults).Ok?
    ensures forall c :: c in GetConferences(st, p, q, now, faults).value.0 ==> c.hostId == p.IdOrNil()
  {
    var q' := NarrowQuery(p, q).value;
    var page := Repo.GetConferences(st, q', now, faults).value.0;
    forall c | c in GetConferences(st, p, q, now, faults).value.0 ensures c.hostId == p.IdOrNil() {
      var i :| 0 <= i < |page| && PopulateAll(page)[i] == c;
      assert page[i] in page;
    }
  }

  // ---------------------------------------------------------------------------
  // CreateConferenceProposal
  // ---------------------------------------------------------------------------

  /** The query the proposal flow uses to look for the host's open proposal. */
  function ActiveProposalQuery(host: Id): ConferenceQuery {
    ConferenceQuery(None, None, 1, Some(host), Pending, None, None, false, CreatedAt, Desc, None)
  }

  /** The host already has a live pending proposal that has not ended. */
  predicate HasActiveProposal(st: Store, host: Id, now: Time) {
    exists c :: c in st.conferences && c.deletedAt.None? && c.hostId == host && c.status == Pending && c.endsAt > now
  }

  /** The conference a successful proposal stores. */
  function NewProposal(id: Id, host: Id, req: ProposalRequest): Conference {
    Conference(id, req.title, req.description, req.speakerName, req.speakerTitle, req.targetAudience,
               req.prerequisites, req.seats, req.startsAt, req.endsAt, host, Pending, 0, 0, None, 0)
  }

  /** The row `c` is the proposal `req` of `host` under `id`, as stored. */
  predicate StoredProposal(c: Conference, id: Id, host: Id, req: ProposalRequest, now: Time) {
    && c.id == id && c.hostId == host && c.status == Pending && c.deletedAt.None?
    && c.title == req.title && c.description == req.description
    && c.speakerName == req.speakerName && c.speakerTitle == req.speakerTitle
    && c.targetAudience == req.targetAudience && c.prerequisites == req.prerequisites
    && c.seats == req.seats && c.startsAt == req.startsAt && c.endsAt == req.endsAt
    && c.createdAt == now
  }

  lemma ActiveProposalLookup(st: Store, p: Principal, host: Id, now: Time, faults: set<Call>)
    requires p.id == Some(host) && ConferenceList !in faults
    ensures GetConferences(st, p, ActiveProposalQuery(host), now, faults).Ok?
    ensures |GetConferences(st, p, ActiveProposalQuery(host), now, faults).value.0| > 0 <==> HasActiveProposal(st, host, now)
  {
    var q := ActiveProposalQuery(host);
    assert NarrowQuery(p, q) == Ok(q);
    var res := Repo.GetConferences(st, q, now, faults);
    assert !Repo.AmbiguousCursor(q);
    var m := Repo.Matching(Repo.ScannedRows(st.conferences), q, now);
    assert |res.value.0| == Min(1, |m|);
    assert GetConferences(st, p, q, now, faults).value.0 == PopulateAll(res.value.0);
    ActiveProposalMatches(st, host, now);
  }

  /** The listing query of the proposal flow matches a row exactly when the
      host has an active proposal. */
  lemma ActiveProposalMatches(st: Store, host: Id, now: Time)
    ensures |Repo.Matching(Repo.ScannedRows(st.conferences), ActiveProposalQuery(host), now)| > 0 <==> HasActiveProposal(st, host, now)
  {
    var q := ActiveProposalQuery(host);
    var rows := Repo.ScannedRows(st.conferences);
    var m := Repo.Matching(rows, q, now);
    if |m| > 0 {
      assert m[0] in rows;
      var i :| 0 <= i < |rows| && rows[i] == m[0];
      assert st.conferences[i] in st.conferences;
    }
    if HasActiveProposal(st, host, now) {
      var c :| c in st.conferences && c.deletedAt.None? && c.hostId == host && c.status == Pending && c.endsAt > now;
      var i :| 0 <= i < |st.conferences| && st.conferences[i] == c;
      assert rows[i] in rows;
      assert Repo.Selected(rows, rows[i], q, now);
      assert rows[i] in m;
    }
  }

  function CreateConferenceProposal(st: Store, p: Principal, req: ProposalRequest, now: Time,
                                    newId: Option<Id>, faults: set<Call>): (r: Result<(Id, Store), Error>)
    // the guards, in the order they are tried
    ensures p.id.None? ==> r == Err(Internal)
    ensures p.id.Some? && ConferenceList in faults ==> r == Err(Internal)
    ensures p.id.Some? && ConferenceList !in faults && HasActiveProposal(st, p.id.value, now) ==>
      r.Err? && r.error.UserHasActiveProposal?
    ensures p.id.Some? && ConferenceList !in faults && !HasActiveProposal(st, p.id.value, now) ==>
      && (ConferenceConflicts in faults ==> r == Err(Internal))
      && (ConferenceConflicts !in faults && AnyConflict(st, req.startsAt, req.endsAt, Nil) ==>
            r.Err? && r.error.TimeWindowConflict? && |r.error.conflicts| > 0)
      && (ConferenceConflicts !in faults && !AnyConflict(st, req.startsAt, req.endsAt, Nil) ==>
            && (newId.None? ==> r == Err(Internal))
            && (newId.Some? && req.startsAt < now ==> r == Err(TimeAlreadyPassed))
            && (newId.Some? && req.startsAt >= now && req.endsAt < req.startsAt ==> r == Err(EndTimeBeforeStart))
            && (newId.Some? && req.startsAt >= now && req.endsAt >= req.startsAt ==>
                  && (r.Ok? <==> ConferenceCreate !in faults && !Repo.HasRow(st.conferences, newId.value))
                  && (r.Err? ==> r == Err(Internal))))
    // a success stores exactly one new pending conference, hosted by the requester
    ensures r.Ok? ==> p.id.Some? && newId == Some(r.value.0) && !Repo.HasRow(st.conferences, r.value.0)
    ensures r.Ok? ==> var st' := r.value.1;
      && |st'.conferences| == |st.conferences| + 1
      && st'.conferences[..|st.conferences|] == st.conferences
      && StoredProposal(st'.conferences[|st.conferences|], r.value.0, p.id.value, req, now)
      && st'.registrations == st.registrations && st'.feedbacks == st.feedbacks && st'.users == st.users
  {
    if p.id.None? then Err(Internal)
    else
      var requester := p.id.value;
      if ConferenceList in faults then Err(Internal)
      else
      ActiveProposalLookup(st, p, requester, now, faults);
      match GetConferences(st, p, ActiveProposalQuery(requester), now, faults)
      case Err(e) => Err(e)
      case Ok((open, _)) =>
        if |open| > 0 then Err(UserHasActiveProposal(open[0].id))
        else match Repo.GetConflictingWithTime(st, req.startsAt, req.endsAt, Nil, faults)
          case Err(_) => Err(Internal)
          case Ok(conflicts) =>
            if |conflicts| > 0 then Err(TimeWindowConflict(Ids(conflicts)))
            else if newId.None? then Err(Internal)
            else if req.startsAt < now then Err(TimeAlreadyPassed)
            else if req.endsAt < req.startsAt then Err(EndTimeBeforeStart)
            else match Repo.CreateConference(st, NewProposal(newId.value, requester, req), now, faults)
              case Err(_) => Err(Internal)
              case Ok(st') => Ok((newId.value, st'))
  }

  // ---------------------------------------------------------------------------
  // UpdateConference
  // ---------------------------------------------------------------------------

  /** The request touches the time window. */
  predicate TouchesWindow(req: UpdateRequest) {
    req.startsAt.Some? || req.endsAt.Some?
  }

  /** The window the source hands to the conflict query: it dereferences both
      requested times, so a request naming only one of them has no window
      (the dereference panics and the request fails). */
  function ConflictWindowAsWritten(req: UpdateRequest): (r: Option<(Time, Time)>)
    ensures r.Some? <==> req.startsAt.Some? && req.endsAt.Some?
    ensures r.Some? ==> r.value == (req.startsAt.value, req.endsAt.value)
  {
    if req.startsAt.Some? && req.endsAt.Some? then Some((req.startsAt.value, req.endsAt.value)) else None
  }

  /** The window the conference would occupy after the update: the one this
      model checks for conflicts. */
  function ConflictWindow(original: Conference, req: UpdateRequest): (r: (Time, Time))
    ensures ConflictWindowAsWritten(req).Some? ==> r == ConflictWindowAsWritten(req).value
    ensures req.startsAt.None? ==> r.0 == original.startsAt
    ensures req.endsAt.None? ==> r.1 == original.endsAt
  {
    (Pick(req.startsAt, original.startsAt), Pick(req.endsAt, original.endsAt))
  }

  /** The checked window is the window of the merged conference, the one the
      validations before the query look at and the update then stores. */
  lemma ConflictWindowIsMergedWindow(original: Conference, req: UpdateRequest)
    ensures ConflictWindow(original, req) == (Merge(original, req).startsAt, Merge(original, req).endsAt)
  {
  }

  /** Moving only the start has no window as written, while the merged window
      is the one the validations before it have just checked. */
  lemma OneSidedWindowHasNoConflictInput(original: Conference, start: Time)
    ensures ConflictWindowAsWritten(NoChange.(startsAt := Some(start))).None?
    ensures ConflictWindow(original, NoChange.(startsAt := Some(start))) == (start, original.endsAt)
  {
  }

  function UpdateConference(st: Store, p: Principal, id: Id, req: UpdateRequest, now: Time, faults: set<Call>)
    : (r: Result<Store, Error>)
    // the guards, in the order they are tried
    ensures p.id.None? ==> r == Err(Internal)
    ensures p.id.Some? ==> var row := Repo.GetConferenceById(st, id, faults);
      && (row.Err? ==> r == Err(LookupError(row.error)))
      && (row.Ok? && row.value.hostId != p.id.value ==> r == Err(ForbiddenUser))
      && (row.Ok? && row.value.hostId == p.id.value ==>
            var original := row.value;
            var merged := Merge(original, req);
            && (original.endsAt < now ==> r == Err(UpdatePastConference))
            && (original.endsAt >= now && original.status == Rejected ==> r == Err(UpdateRejectedConference))
            && (original.endsAt >= now && original.status != Rejected && TouchesWindow(req) ==>
                  && (original.status == Approved ==> r == Err(UpdateApprovedTimeWindow))
                  && (original.status == Pending && merged.startsAt < now ==> r == Err(TimeAlreadyPassed))
                  && (original.status == Pending && merged.startsAt >= now && merged.endsAt < merged.startsAt ==>
                        r == Err(EndTimeBeforeStart))
                  && (original.status == Pending && merged.startsAt >= now && merged.endsAt >= merged.startsAt ==>
                        && (ConferenceConflicts in faults ==> r == Err(Internal))
                        && (ConferenceConflicts !in faults && AnyConflict(st, merged.startsAt, merged.endsAt, id) ==>
                              r.Err? && r.error.TimeWindowConflict? && |r.error.conflicts| > 0)
                        && (ConferenceConflicts !in faults && !AnyConflict(st, merged.startsAt, merged.endsAt, id) ==>
                              (r.Ok? <==> ConferenceUpdate !in faults) && (r.Err? ==> r == Err(Internal)))))
            && (original.endsAt >= now && original.status != Rejected && !TouchesWindow(req) ==>
                  (r.Ok? <==> ConferenceUpdate !in faults) && (r.Err? ==> r == Err(Internal))))
    // a success stores the original merged with the request, and nothing else changes
    ensures r.Ok? ==>
      && p.id.Some? && Repo.GetConferenceById(st, id, faults).Ok?
      && var original := Repo.GetConferenceById(st, id, faults).value;
         var merged := Merge(original, req);
      && original.hostId == p.id.value && original.endsAt >= now && original.status != Rejected
      && (TouchesWindow(req) ==> original.status == Pending && now <= merged.startsAt <= merged.endsAt
                                 && !AnyConflict(st, merged.startsAt, merged.endsAt, id))
      && r.value.registrations == st.registrations && r.value.feedbacks == st.feedbacks && r.value.users == st.users
      && |r.value.conferences| == |st.conferences|
      && (forall i :: 0 <= i < |st.conferences| && st.conferences[i].id != id ==> r.value.conferences[i] == st.conferences[i])
      && (forall i :: 0 <= i < |st.conferences| && st.conferences[i].id == id ==>
            r.value.conferences[i] ==
              merged.(createdAt := st.conferences[i].createdAt, deletedAt := st.conferences[i].deletedAt,
                      registrationCount := st.conferences[i].registrationCount, updatedAt := now))
  {
    if p.id.None? then Err(Internal)
    else
      match Repo.GetConferenceById(st, id, faults)
      case Err(e) => Err(LookupError(e))
      case Ok(original) =>
        var merged := Merge(original, req);
        if original.hostId != p.id.value then Err(ForbiddenUser)
        else if original.endsAt < now then Err(UpdatePastConference)
        else if original.status == Rejected then Err(UpdateRejectedConference)
        else
          ConflictWindowIsMergedWindow(original, req);
          var window := ConflictWindow(original, req);
          var checked :=
            if !TouchesWindow(req) then Ok(())
            else if original.status == Approved then Err(UpdateApprovedTimeWindow)
            else if merged.startsAt < now then Err(TimeAlreadyPassed)
            else if merged.endsAt < merged.startsAt then Err(EndTimeBeforeStart)
            else match Repo.GetConflictingWithTime(st, window.0, window.1, id, faults)
              case Err(_) => Err(Internal)
              case Ok(conflicts) => if |conflicts| > 0 then Err(TimeWindowConflict(Ids(conflicts))) else Ok(());
          if checked.Err? then Err(checked.error)
          else match Repo.UpdateConference(st, merged, now, faults)
            case Err(_) => Err(Internal)
            case Ok(st') => Ok(st')
  }

  /** The update reaches the conflict query with one requested time missing:
      every guard before the query has passed. */
  predicate ReachesOneSidedQuery(st: Store, p: Principal, id: Id, req: UpdateRequest, now: Time, faults: set<Call>) {
    && p.id.Some? && TouchesWindow(req) && ConflictWindowAsWritten(req).None?
    && var row := Repo.GetConferenceById(st, id, faults);
    && row.Ok? && row.value.hostId == p.id.value && row.value.endsAt >= now && row.value.status == Pending
    && var merged := Merge(row.value, req);
    && now <= merged.startsAt <= merged.endsAt
  }

  /** The update as the source runs it: a request that moves one end of the
      window only panics at the conflict query, and the recover middleware
      answers with an internal error. */
  function UpdateConferenceAsWritten(st: Store, p: Principal, id: Id, req: UpdateRequest, now: Time, faults: set<Call>)
    : (r: Result<Store, Error>)
    ensures ReachesOneSidedQuery(st, p, id, req, now, faults) ==> r == Err(Internal)
    ensures !ReachesOneSidedQuery(st, p, id, req, now, faults) ==> r == UpdateConference(st, p, id, req, now, faults)
    ensures r.Ok? ==> !TouchesWindow(req) || ConflictWindowAsWritten(req).Some?
  {
    if ReachesOneSidedQuery(st, p, id, req, now, faults) then Err(Internal)
    else UpdateConference(st, p, id, req, now, faults)
  }

  /** A host who moves only the start of a pending session into a free slot
      gets an internal error as written, and the update with the merged window. */
  lemma MovingOnlyTheStartFailsAsWritten()
    ensures var c := Conference(1, "t", "d", "s", "st", "a", None, 10, 100, 200, 7, Pending, 0, 0, None, 0);
      var st := Store([c], {}, [], []);
      var req := NoChange.(startsAt := Some(150));
      && UpdateConferenceAsWritten(st, Principal(Some(7), Some(User)), 1, req, 50, {}) == Err(Internal)
      && UpdateConference(st, Principal(Some(7), Some(User)), 1, req, 50, {}).Ok?
  {
    var c := Conference(1, "t", "d", "s", "st", "a", None, 10, 100, 200, 7, Pending, 0, 0, None, 0);
    var st := Store([c], {}, [], []);
    var req := NoChange.(startsAt := Some(150));
    assert Repo.GetConferenceById(st, 1, {}) == Ok(c);
    assert !AnyConflict(st, 150, 200, 1);
  }

  // ---------------------------------------------------------------------------
  // DeleteConference
  // ---------------------------------------------------------------------------

  function DeleteConference(st: Store, p: Principal, id: Id, now: Time, faults: set<Call>): (r: Result<Store, Error>)
    // the guards, in the order they are tried
    ensures p.id.None? || p.role.None? ==> r == Err(Internal)
    ensures p.id.Some? && p.role.Some? ==> var row := Repo.GetConferenceById(st, id, faults);
      && (row.Err? ==> r == Err(LookupError(row.error)))
      && (row.Ok? && p.role == Some(User) && row.value.hostId != p.id.value ==> r == Err(ForbiddenUser))
      && (row.Ok? && (p.role != Some(User) || row.value.hostId == p.id.value) ==> (r.Ok? <==> ConferenceDelete !in faults) && (r.Err? ==> r == Err(Internal)))
    // a success marks every row with the id deleted and changes nothing else
    ensures r.Ok? ==>
      && r.value.registrations == st.registrations && r.value.feedbacks == st.feedbacks && r.value.users == st.users
      && |r.value.conferences| == |st.conferences|
      && (forall i :: 0 <= i < |st.conferences| && st.conferences[i].id != id ==> r.value.conferences[i] == st.conferences[i])
      && (forall i :: 0 <= i < |st.conferences| && st.conferences[i].id == id ==>
            r.value.conferences[i] == st.conferences[i].(deletedAt := Some(now)))
  {
    if p.id.None? || p.role.None? then Err(Internal)
    else
      match Repo.GetConferenceById(st, id, faults)
      case Err(e) => Err(LookupError(e))
      case Ok(c) =>
        if p.role == Some(User) && c.hostId != p.id.value then Err(ForbiddenUser)
        else match Repo.DeleteConference(st, id, now, faults)
          case Err(_) => Err(Internal)
          case Ok(st') => Ok(st')
  }

  /** A deleted conference can no longer be read. */
  lemma DeletedIsNotFound(st: Store, p: Principal, q: Principal, id: Id, now: Time, faults: set<Call>)
    requires ConferenceById !in faults
    requires DeleteConference(st, p, id, now, faults).Ok?
    ensures GetConferenceById(DeleteConference(st, p, id, now, faults).value, q, id, faults) == Err(NotFound)
  {
    Repo.DeleteTwice(st, id, now, now, faults);
  }

  // ---------------------------------------------------------------------------
  // UpdateConferenceStatus
  // ---------------------------------------------------------------------------

  /** Once a conference has started, the only transition left is rejecting a
      pending proposal. */
  predicate StatusChangeAllowedAfterStart(current: Status, target: Status) {
    current == Pending && target == Rejected
  }

  function UpdateConferenceStatus(st: Store, id: Id, target: Status, now: Time, faults: set<Call>)
    : (r: Result<Store, Error>)
    // the guards, in the order they are tried
    ensures var row := Repo.GetConferenceById(st, id, faults);
      && (row.Err? ==> r == Err(LookupError(row.error)))
      && (row.Ok? && row.value.startsAt < now && !StatusChangeAllowedAfterStart(row.value.status, target) ==>
            r == Err(UpdatePastConferenceStatus))
      && (row.Ok? && (row.value.startsAt >= now || StatusChangeAllowedAfterStart(row.value.status, target)) ==>
            && (target == Approved && ConferenceConflicts in faults ==> r == Err(Internal))
            && (target == Approved && ConferenceConflicts !in faults
                && AnyConflict(st, row.value.startsAt, row.value.endsAt, id) ==>
                  r.Err? && r.error.TimeWindowConflict? && |r.error.conflicts| > 0)
            && (target != Approved || (ConferenceConflicts !in faults && !AnyConflict(st, row.value.startsAt, row.value.endsAt, id)) ==>
                  (r.Ok? <==> ConferenceUpdate !in faults) && (r.Err? ==> r == Err(Internal))))
    // a success changes the status of the rows with the id, and nothing else
    ensures r.Ok? ==>
      && Repo.GetConferenceById(st, id, faults).Ok?
      && var original := Repo.GetConferenceById(st, id, faults).value;
      && (target == Approved ==> !AnyConflict(st, original.startsAt, original.endsAt, id))
      && r.value.registrations == st.registrations && r.value.feedbacks == st.feedbacks && r.value.users == st.users
      && |r.value.conferences| == |st.conferences|
      && (forall i :: 0 <= i < |st.conferences| && st.conferences[i].id != id ==> r.value.conferences[i] == st.conferences[i])
      && (forall i :: 0 <= i < |st.conferences| && st.conferences[i].id == id ==>
            r.value.conferences[i] ==
              original.(status := target, createdAt := st.conferences[i].createdAt,
                        deletedAt := st.conferences[i].deletedAt,
                        registrationCount := st.conferences[i].registrationCount, updatedAt := now))
  {
    match Repo.GetConferenceById(st, id, faults)
    case Err(e) => Err(LookupError(e))
    case Ok(c) =>
      if c.startsAt < now && !StatusChangeAllowedAfterStart(c.status, target) then Err(UpdatePastConferenceStatus)
      else
        var checked :=
          if target != Approved then Ok(())
          else match Repo.GetConflictingWithTime(st, c.startsAt, c.endsAt, id, faults)
            case Err(_) => Err(Internal)
            case Ok(conflicts) => if |conflicts| > 0 then Err(TimeWindowConflict(Ids(conflicts))) else Ok(());
        if checked.Err? then Err(checked.error)
        else match Repo.UpdateConference(st, c.(status := target), now, faults)
          case Err(_) => Err(Internal)
          case Ok(st') => Ok(st')
  }

  /** The source status is never checked before the start: a rejected
      conference that has not started can still be approved. */
  lemma RejectedCanBeApproved(st: Store, id: Id, now: Time, faults: set<Call>)
    requires faults == {}
    requires Repo.GetConferenceById(st, id, faults).Ok?
    requires Repo.GetConferenceById(st, id, faults).value.status == Rejected
    requires Repo.GetConferenceById(st, id, faults).value.startsAt >= now
    requires !AnyConflict(st, Repo.GetConferenceById(st, id, faults).value.startsAt, Repo.GetConferenceById(st, id, faults).value.endsAt, id)
    ensures UpdateConferenceStatus(st, id, Approved, now, faults).Ok?
  {
  }
}

=== FILE: domain.dfy ===
/** Entities, enums, errors and the store of the conference backend. */
module Domain {
  import opened Base
  import opened Ordering

  /** Conference review state (domain/enum/conference_status.go). */
  datatype Status = Pending | Approved | Rejected

  /** User roles (domain/enum/user_role.go), plus the super-admin role the
      role gate refers to. */
  datatype Role = Admin | EventCoordinator | User | SuperAdmin

  /** A conference session row (domain/entity/conference_entity.go). */
  datatype Conference = Conference(
    id: Id,
    title: string,
    description: string,
    speakerName: string,
    speakerTitle: string,
    targetAudience: string,
    prerequisites: Option<string>,
    seats: int,
    startsAt: Time,
    endsAt: Time,
    hostId: Id,
    status: Status,
    createdAt: Time,
    updatedAt: Time,
    deletedAt: Option<Time>,
    registrationCount: int)

  /** The columns of a user row that the registration listing reads. */
  datatype UserRow = UserRow(id: Id, name: string)

  /** A feedback row (domain/entity/feedback_entity.go). */
  datatype Feedback = Feedback(
    id: Id,
    userId: Id,
    conferenceId: Id,
    comment: string,
    createdAt: Time,
    deletedAt: Option<Time>)

  /** A registration is identified by (conference id, user id). */
  type Registration = (Id, Id)

  /** The persisted state the repositories read and write. */
  datatype Store = Store(
    conferences: seq<Conference>,
    registrations: set<Registration>,
    feedbacks: seq<Feedback>,
    users: seq<UserRow>)

  /** The requester taken from the request context; either part may be missing. */
  datatype Principal = Principal(id: Option<Id>, role: Option<Role>) {
    /** The id a failed context lookup yields: the zero UUID. */
    function IdOrNil(): Id {
      if id.Some? then id.value else Nil
    }

    predicate IsUser() {
      role == Some(User)
    }
  }

  /** The repository calls whose I/O can fail. */
  datatype Call =
    | ConferenceById | ConferenceList | ConferenceConflicts
    | ConferenceCreate | ConferenceUpdate | ConferenceDelete
    | RegistrationCheck | RegistrationCount | RegistrationConflicts
    | RegistrationCreate | RegisteredUsers | RegisteredConferences
    | FeedbackCreate | FeedbackList | FeedbackDelete

  /** What a repository call can fail with: `sql.ErrNoRows` or any other error. */
  datatype DbError = NoRows | DriverFailure

  /** The errors the services return (domain/errorpkg). Conflict errors carry
      the ids of the conflicting conferences as their detail. */
  datatype Error =
    | Internal
    | NotFound
    | ForbiddenUser
    | ForbiddenRole
    | InvalidPagination
    | UserHasActiveProposal(proposal: Id)
    | TimeWindowConflict(conflicts: seq<Id>)
    | TimeAlreadyPassed
    | EndTimeBeforeStart
    | UpdatePastConference
    | UpdateRejectedConference
    | UpdateApprovedTimeWindow
    | UpdatePastConferenceStatus
    | HostCannotRegister
    | ConferenceEnded
    | AlreadyRegistered
    | ConferenceFull
    | ConflictingRegistrations(conflicts: seq<Id>)
    | UserNotRegisteredToConference
    | HostCannotGiveFeedback
    | ConferenceNotEnded

  /** A cursor query of the registration and feedback listings
      (domain/dto/lazy_load_dto.go); `Nil` means "no cursor". */
  datatype LazyLoadQuery = LazyLoadQuery(afterId: Id, beforeId: Id, limit: nat)

  /** The pagination envelope returned next to every page. */
  datatype PageInfo = PageInfo(hasMore: bool, firstId: Option<Id>, lastId: Option<Id>)

  /** The envelope of a final page: its first and last ids, absent when empty. */
  function Envelope<T>(page: seq<T>, hasMore: bool, idOf: T -> Id): PageInfo {
    if |page| == 0 then PageInfo(hasMore, None, None)
    else PageInfo(hasMore, Some(idOf(page[0])), Some(idOf(page[|page| - 1])))
  }

  /** The envelope names exactly the ends of the page. */
  predicate DescribesPage<T>(info: PageInfo, page: seq<T>, idOf: T -> Id) {
    && (|page| == 0 ==> info.firstId.None? && info.lastId.None?)
    && (|page| > 0 ==> info.firstId == Some(idOf(page[0])) && info.lastId == Some(idOf(page[|page| - 1])))
  }

  /** Sort keys of the ORDER BY clauses. */
  function IdKey(c: Conference): Key { (c.id, 0) }
  function StartsAtKey(c: Conference): Key { (c.startsAt, 0) }
  function StartsAtIdKey(c: Conference): Key { (c.startsAt, c.id) }
  function UserIdKey(u: UserRow): Key { (u.id, 0) }
  function FeedbackIdKey(f: Feedback): Key { (f.id, 0) }

  /** The ids of a list of conferences, in order: the detail of a conflict error. */
  function Ids(cs: seq<Conference>): seq<Id> {
    seq(|cs|, i requires 0 <= i < |cs| => cs[i].id)
  }

  function ConferenceId(c: Conference): Id { c.id }
  function UserId(u: UserRow): Id { u.id }
  function FeedbackId(f: Feedback): Id { f.id }
}

=== FILE: feedback_repository.dfy ===
/** The feedback repository
    (internal/app/feedback/repository/feedback_repository.go): insertion, the
    keyset listing of a conference's feedback, and soft deletion. */
module FeedbackRepository {
  import opened Base
  import opened Ordering
  import opened Domain
  import opened Paging

  predicate HasFeedback(rows: seq<Feedback>, id: Id) {
    exists f :: f in rows && f.id == id
  }

  /** CreateFeedback: the row as given, not deleted; a repeated primary key is
      refused. */
  function CreateFeedback(st: Store, f: Feedback, faults: set<Call>): (r: Result<Store, DbError>)
    ensures r.Ok? <==> FeedbackCreate !in faults && !HasFeedback(st.feedbacks, f.id)
    ensures r.Err? ==> r.error == DriverFailure
    ensures r.Ok? ==> r.value == st.(feedbacks := st.feedbacks + [f.(deletedAt := None)])
  {
    if FeedbackCreate in faults || HasFeedback(st.feedbacks, f.id) then Err(DriverFailure)
    else Ok(st.(feedbacks := st.feedbacks + [f.(deletedAt := None)]))
  }

  // ---------------------------------------------------------------------------
  // GetFeedbacksByConferenceID
  // ---------------------------------------------------------------------------

  /** Live feedback of conference `cid`, strictly inside the cursors that are set. */
  predicate FeedbackCandidate(cid: Id, lazy: LazyLoadQuery, f: Feedback) {
    && f.conferenceId == cid
    && f.deletedAt.None?
    && (lazy.afterId != Nil ==> f.id > lazy.afterId)
    && (lazy.beforeId != Nil ==> f.id < lazy.beforeId)
  }

  function FeedbackCandidates(st: Store, cid: Id, lazy: LazyLoadQuery): (r: seq<Feedback>)
    ensures forall f :: f in r <==> f in st.feedbacks && FeedbackCandidate(cid, lazy, f)
    ensures multiset(r) <= multiset(st.feedbacks)
  {
    Filter(st.feedbacks, f => FeedbackCandidate(cid, lazy, f))
  }

  function GetFeedbacksByConferenceID(st: Store, cid: Id, lazy: LazyLoadQuery, faults: set<Call>)
    : (r: Result<(seq<Feedback>, PageInfo), DbError>)
    requires lazy.limit >= 1
    ensures r.Err? <==> FeedbackList in faults
    ensures r.Ok? ==> |r.value.0| <= lazy.limit
    ensures r.Ok? ==> (r.value.1.hasMore <==> |FeedbackCandidates(st, cid, lazy)| > lazy.limit)
    ensures r.Ok? ==> forall f :: f in r.value.0 ==> f in st.feedbacks && FeedbackCandidate(cid, lazy, f)
    ensures r.Ok? ==> multiset(r.value.0) <= multiset(FeedbackCandidates(st, cid, lazy))
    ensures r.Ok? && !r.value.1.hasMore ==> multiset(r.value.0) == multiset(FeedbackCandidates(st, cid, lazy))
    ensures r.Ok? ==> Sorted(r.value.0, FeedbackIdKey, Asc)
    ensures r.Ok? ==> DescribesPage(r.value.1, r.value.0, FeedbackId)
  {
    if FeedbackList in faults then Err(DriverFailure)
    else
      var (page, more) := KeysetList(FeedbackCandidates(st, cid, lazy), FeedbackIdKey, lazy.limit, lazy.beforeId != Nil);
      Ok((page, Envelope(page, more, FeedbackId)))
  }

  /** A forward page holds the feedback with the smallest ids past the cursor. */
  lemma FeedbackForwardPageIsHead(st: Store, cid: Id, lazy: LazyLoadQuery, faults: set<Call>)
    requires lazy.limit >= 1 && FeedbackList !in faults && lazy.beforeId == Nil
    ensures var page := GetFeedbacksByConferenceID(st, cid, lazy, faults).value.0;
      && |page| == Min(lazy.limit, |FeedbackCandidates(st, cid, lazy)|)
      && forall x, y :: x in page && y in FeedbackCandidates(st, cid, lazy) && y !in page ==> x.id <= y.id
  {
    var all := FeedbackCandidates(st, cid, lazy);
    var page := KeysetList(all, FeedbackIdKey, lazy.limit, false).0;
    assert GetFeedbacksByConferenceID(st, cid, lazy, faults).value.0 == page;
    KeysetListForwardIsHead(all, FeedbackIdKey, lazy.limit);
    forall x, y | x in page && y in all && y !in page ensures x.id <= y.id {
      assert KeyLe(FeedbackIdKey(x), FeedbackIdKey(y));
    }
  }

  /** A backward page that overflows leaves out the feedback nearest the cursor. */
  lemma FeedbackBackwardOverflowDropsNearest(st: Store, cid: Id, lazy: LazyLoadQuery, faults: set<Call>)
    requires lazy.limit >= 1 && FeedbackList !in faults && lazy.beforeId != Nil
    requires GetFeedbacksByConferenceID(st, cid, lazy, faults).value.1.hasMore
    ensures var page := GetFeedbacksByConferenceID(st, cid, lazy, faults).value.0;
      var all := FeedbackCandidates(st, cid, lazy);
      && |page| == lazy.limit
      && exists n :: Nearest(all, n, FeedbackIdKey) && multiset(page) + multiset{n} <= multiset(all)
  {
    KeysetListBackwardDropsNearest(FeedbackCandidates(st, cid, lazy), FeedbackIdKey, lazy.limit);
  }

  // ---------------------------------------------------------------------------
  // DeleteFeedback
  // ---------------------------------------------------------------------------

  function SoftDeleteFeedbacks(rows: seq<Feedback>, id: Id, now: Time): seq<Feedback> {
    seq(|rows|, i requires 0 <= i < |rows| => if rows[i].id == id then rows[i].(deletedAt := Some(now)) else rows[i])
  }

  /** DeleteFeedback: marks every row with the id deleted; it does not look at
      deleted_at, and reports NoRows only when no row has the id. */
  function DeleteFeedback(st: Store, id: Id, now: Time, faults: set<Call>): (r: Result<Store, DbError>)
    ensures FeedbackDelete in faults ==> r == Err(DriverFailure)
    ensures FeedbackDelete !in faults ==> (r == Err(NoRows) <==> !HasFeedback(st.feedbacks, id))
    ensures r.Ok? ==> r.value.conferences == st.conferences && r.value.registrations == st.registrations && r.value.users == st.users
    ensures r.Ok? ==> |r.value.feedbacks| == |st.feedbacks|
    ensures r.Ok? ==> forall i :: 0 <= i < |st.feedbacks| ==>
      r.value.feedbacks[i] ==
        if st.feedbacks[i].id == id then st.feedbacks[i].(deletedAt := Some(now)) else st.feedbacks[i]
  {
    if FeedbackDelete in faults then Err(DriverFailure)
    else if !HasFeedback(st.feedbacks, id) then Err(NoRows)
    else Ok(st.(feedbacks := SoftDeleteFeedbacks(st.feedbacks, id, now)))
  }

  /** Deleting twice succeeds, and the deleted feedback leaves every listing. */
  lemma DeleteFeedbackTwice(st: Store, id: Id, now: Time, later: Time, cid: Id, lazy: LazyLoadQuery, faults: set<Call>)
    requires FeedbackDelete !in faults
    requires DeleteFeedback(st, id, now, faults).Ok?
    ensures DeleteFeedback(DeleteFeedback(st, id, now, faults).value, id, later, faults).Ok?
    ensures forall f :: f in FeedbackCandidates(DeleteFeedback(st, id, now, faults).value, cid, lazy) ==> f.id != id
  {
    var st' := DeleteFeedback(st, id, now, faults).value;
    var f :| f in st.feedbacks && f.id == id;
    var i :| 0 <= i < |st.feedbacks| && st.feedbacks[i] == f;
    assert st'.feedbacks[i].id == id;
    forall g | g in st'.feedbacks && g.deletedAt.None? ensures g.id != id {
      var j :| 0 <= j < |st'.feedbacks| && st'.feedbacks[j] == g;
    }
  }
}

=== FILE: feedback_service.dfy ===
/** The feedback service (internal/app/feedback/service/feedback_service.go):
    the admission chain of CreateFeedback, the listing, and the error mapping of
    DeleteFeedback. */
module FeedbackService {
  import opened Base
  import opened Ordering
  import opened Domain
  import Conferences = ConferenceService
  import Registrations = RegistrationRepository
  import opened FeedbackRepository

  /** The creation time the insert writes: the service never sets it, so the
      entity carries Go's zero `time.Time` (0001-01-01 UTC, in Unix seconds). */
  const ZeroTime: Time := -62135596800

  /** The feedback a successful request stores. */
  function NewFeedback(id: Id, uid: Id, cid: Id, comment: string): Feedback {
    Feedback(id, uid, cid, comment, ZeroTime, None)
  }

  function CreateFeedback(st: Store, p: Principal, uid: Id, cid: Id, comment: string, now: Time,
                          newId: Option<Id>, faults: set<Call>): (r: Result<(Id, Store), Error>)
    // the checks, in the order they are tried
    ensures RegistrationCheck in faults ==> r == Err(Internal)
    ensures RegistrationCheck !in faults && (cid, uid) !in st.registrations ==> r == Err(UserNotRegisteredToConference)
    ensures RegistrationCheck !in faults && (cid, uid) in st.registrations ==>
      var v := Conferences.GetConferenceById(st, p, cid, faults);
      && (v.Err? ==> r == Err(v.error))
      && (v.Ok? && v.value.hostId == uid ==> r == Err(HostCannotGiveFeedback))
      && (v.Ok? && v.value.hostId != uid && v.value.endsAt > now ==> r == Err(ConferenceNotEnded))
      && (v.Ok? && v.value.hostId != uid && v.value.endsAt <= now ==>
            && (newId.None? ==> r == Err(Internal))
            && (newId.Some? ==> (r.Ok? <==> FeedbackCreate !in faults && !HasFeedback(st.feedbacks, newId.value)))
            && (newId.Some? && r.Err? ==> r == Err(Internal)))
    // a success stores exactly one feedback under the generated id and returns that id
    ensures r.Ok? ==>
      && newId == Some(r.value.0)
      && r.value.1 == st.(feedbacks := st.feedbacks + [NewFeedback(r.value.0, uid, cid, comment)])
      && Conferences.GetConferenceById(st, p, cid, faults).Ok?
      && Conferences.GetConferenceById(st, p, cid, faults).value.endsAt <= now
  {
    match Registrations.IsUserRegisteredToConference(st, cid, uid, faults)
    case Err(_) => Err(Internal)
    case Ok(registered) =>
      if !registered then Err(UserNotRegisteredToConference)
      else match Conferences.GetConferenceById(st, p, cid, faults)
        case Err(e) => Err(e)
        case Ok(c) =>
          if c.hostId == uid then Err(HostCannotGiveFeedback)
          else if c.endsAt > now then Err(ConferenceNotEnded)
          else if newId.None? then Err(Internal)
          else match FeedbackRepository.CreateFeedback(st, NewFeedback(newId.value, uid, cid, comment), faults)
            case Err(_) => Err(Internal)
            case Ok(st') => Ok((newId.value, st'))
  }

  /** An unregistered user is refused before the conference is looked up: the
      outcome does not depend on the conferences or on whether their lookup
      would fail. */
  lemma UnregisteredNeedsNoLookup(st: Store, p: Principal, uid: Id, cid: Id, comment: string, now: Time,
                                  newId: Option<Id>, faults: set<Call>, others: seq<Conference>)
    requires RegistrationCheck !in faults && (cid, uid) !in st.registrations
    ensures CreateFeedback(st, p, uid, cid, comment, now, newId, faults)
         == CreateFeedback(st.(conferences := others), p, uid, cid, comment, now, newId, faults + {ConferenceById})
         == Err(UserNotRegisteredToConference)
  {
  }

  /** Feedback is accepted from the moment the conference ends. */
  lemma FeedbackOpensAtEnd(st: Store, p: Principal, uid: Id, cid: Id, comment: string, id: Id)
    requires (cid, uid) in st.registrations
    requires Conferences.GetConferenceById(st, p, cid, {}).Ok?
    requires Conferences.GetConferenceById(st, p, cid, {}).value.hostId != uid
    requires !HasFeedback(st.feedbacks, id)
    ensures var end := Conferences.GetConferenceById(st, p, cid, {}).value.endsAt;
      && CreateFeedback(st, p, uid, cid, comment, end, Some(id), {}).Ok?
      && CreateFeedback(st, p, uid, cid, comment, end - 1, Some(id), {}) == Err(ConferenceNotEnded)
  {
  }

  function GetFeedbacksByConferenceID(st: Store, cid: Id, lazy: LazyLoadQuery, faults: set<Call>)
    : (r: Result<(seq<Feedback>, PageInfo), Error>)
    requires lazy.limit >= 1
    ensures r.Err? <==> FeedbackList in faults
    ensures r.Err? ==> r.error == Internal
    ensures r.Ok? ==> forall f :: f in r.value.0 ==> f in st.feedbacks && f.conferenceId == cid && f.deletedAt.None?
    ensures r.Ok? ==> |r.value.0| <= lazy.limit && DescribesPage(r.value.1, r.value.0, FeedbackId)
    // the repository page passes through unchanged
    ensures r.Ok? ==> r.value == FeedbackRepository.GetFeedbacksByConferenceID(st, cid, lazy, faults).value
    ensures r.Ok? ==> Sorted(r.value.0, FeedbackIdKey, Asc)
    ensures r.Ok? ==> (r.value.1.hasMore <==> |FeedbackCandidates(st, cid, lazy)| > lazy.limit)
    ensures r.Ok? && !r.value.1.hasMore ==> multiset(r.value.0) == multiset(FeedbackCandidates(st, cid, lazy))
  {
    match FeedbackRepository.GetFeedbacksByConferenceID(st, cid, lazy, faults)
    case Err(_) => Err(Internal)
    case Ok(page) => Ok(page)
  }

  function DeleteFeedback(st: Store, id: Id, now: Time, faults: set<Call>): (r: Result<Store, Error>)
    ensures FeedbackDelete in faults ==> r == Err(Internal)
    ensures FeedbackDelete !in faults ==> (r == Err(NotFound) <==> !HasFeedback(st.feedbacks, id))
    ensures r.Ok? ==> |r.value.feedbacks| == |st.feedbacks|
    ensures r.Ok? ==> forall i :: 0 <= i < |st.feedbacks| && st.feedbacks[i].id == id ==>
      r.value.feedbacks[i] == st.feedbacks[i].(deletedAt := Some(now))
    ensures r.Ok? ==> forall i :: 0 <= i < |st.feedbacks| && st.feedbacks[i].id != id ==>
      r.value.feedbacks[i] == st.feedbacks[i]
    ensures r.Ok? ==> r.value.conferences == st.conferences && r.value.registrations == st.registrations
  {
    match FeedbackRepository.DeleteFeedback(st, id, now, faults)
    case Err(e) => Err(if e == NoRows then NotFound else Internal)
    case Ok(st') => Ok(st')
  }
}

=== FILE: invariants.dfy ===
/** Store invariants the conference, registration and feedback services keep.
    The services check them one request at a time (a sequential model: the
    check-then-write races between concurrent requests are outside it):
    - conference ids are unique, because every proposal takes a fresh id;
    - every registration names an existing conference;
    - no conference has more registrations than seats;
    - no two live approved conferences overlap (half-open windows). */
module Invariants {
  import opened Base
  import opened Domain
  import opened ConferenceDto
  import Repo = ConferenceRepository
  import Conferences = ConferenceService
  import Registrations = RegistrationRepository
  import RegistrationService
  import FeedbackService

  predicate UniqueConferenceIds(rows: seq<Conference>) {
    forall i, j :: 0 <= i < j < |rows| ==> rows[i].id != rows[j].id
  }

  predicate RegistrationsReferenceConferences(st: Store) {
    forall x :: x in st.registrations ==> Repo.HasRow(st.conferences, x.0)
  }

  /** The service takes the seat count as given (only the HTTP layer asks for at
      least one seat), so a conference without seats may exist, empty. */
  predicate WithinCapacity(st: Store) {
    forall i :: 0 <= i < |st.conferences| && st.conferences[i].deletedAt.None? ==>
      SeatsHold(Registrations.Registrants(st.registrations, st.conferences[i].id), st.conferences[i].seats)
  }

  predicate SeatsHold(taken: set<Id>, seats: int) {
    taken == {} || |taken| <= seats
  }

  /** A live approved conference: one that the conflict check holds against others. */
  predicate Scheduled(c: Conference) {
    c.deletedAt.None? && c.status == Approved
  }

  predicate NoApprovedOverlap(rows: seq<Conference>) {
    forall i, j :: 0 <= i < |rows| && 0 <= j < |rows| && i != j && Scheduled(rows[i]) && Scheduled(rows[j]) ==>
      !Repo.Overlaps(rows[i].startsAt, rows[i].endsAt, rows[j].startsAt, rows[j].endsAt)
  }

  predicate Consistent(st: Store) {
    && UniqueConferenceIds(st.conferences)
    && RegistrationsReferenceConferences(st)
    && WithinCapacity(st)
    && NoApprovedOverlap(st.conferences)
  }

  /** With unique ids, a row found by id is the row at every index with that id. */
  lemma FoundRowIsUnique(rows: seq<Conference>, c: Conference, i: int)
    requires UniqueConferenceIds(rows) && c in rows
    requires 0 <= i < |rows| && rows[i].id == c.id
    ensures rows[i] == c
  {
  }

  // ---------------------------------------------------------------------------
  // Preservation, one operation at a time
  // ---------------------------------------------------------------------------

  /** A new proposal is pending and takes a fresh id: nothing it adds can clash. */
  lemma CreateProposalKeepsConsistency(st: Store, p: Principal, req: ProposalRequest, now: Time,
                                       newId: Option<Id>, faults: set<Call>)
    requires Consistent(st)
    requires Conferences.CreateConferenceProposal(st, p, req, now, newId, faults).Ok?
    ensures Consistent(Conferences.CreateConferenceProposal(st, p, req, now, newId, faults).value.1)
  {
    var r := Conferences.CreateConferenceProposal(st, p, req, now, newId, faults).value;
    var c := r.1.conferences[|st.conferences|];
    assert r.1.conferences == st.conferences + [c];
    assert r.1 == st.(conferences := st.conferences + [c]);
    AppendFreshPendingKeepsConsistency(st, c);
  }

  /** Appending a pending row under an id no row has keeps the store consistent. */
  lemma AppendFreshPendingKeepsConsistency(st: Store, c: Conference)
    requires Consistent(st)
    requires !Repo.HasRow(st.conferences, c.id) && c.status == Pending
    ensures Consistent(st.(conferences := st.conferences + [c]))
  {
    var rows := st.conferences;
    var rows' := rows + [c];
    var st' := st.(conferences := rows');
    forall i, j | 0 <= i < j < |rows'| ensures rows'[i].id != rows'[j].id {
      assert rows'[i] == rows[i] && rows[i] in rows;
    }
    forall x | x in st.registrations ensures Repo.HasRow(rows', x.0) {
      var d :| d in rows && d.id == x.0;
      assert d in rows';
    }
    assert Registrations.Registrants(st.registrations, c.id) == {};
  }

  lemma UpdateKeepsConsistency(st: Store, p: Principal, id: Id, req: UpdateRequest, now: Time, faults: set<Call>)
    requires Consistent(st)
    requires Conferences.UpdateConference(st, p, id, req, now, faults).Ok?
    ensures Consistent(Conferences.UpdateConference(st, p, id, req, now, faults).value)
  {
    var st' := Conferences.UpdateConference(st, p, id, req, now, faults).value;
    var original := Repo.GetConferenceById(st, id, faults).value;
    var row :| row in st.conferences && original == Repo.Scanned(row);
    forall i | 0 <= i < |st.conferences| && st.conferences[i].id == id ensures Repo.Scanned(st.conferences[i]) == original {
      FoundRowIsUnique(st.conferences, row, i);
    }
    RowwiseChangeKeepsConsistency(st, st');
  }

  /** A write that keeps every row's id and seats, never revives a deleted row,
      and leaves every row it makes or keeps scheduled where it was, keeps the
      store consistent. */
  lemma RowwiseChangeKeepsConsistency(st: Store, st': Store)
    requires Consistent(st)
    requires st'.registrations == st.registrations && |st'.conferences| == |st.conferences|
    requires forall i :: 0 <= i < |st.conferences| ==>
      && st'.conferences[i].id == st.conferences[i].id
      && st'.conferences[i].seats == st.conferences[i].seats
      && (st'.conferences[i].deletedAt.None? ==> st.conferences[i].deletedAt.None?)
      && (Scheduled(st'.conferences[i]) ==>
            Scheduled(st.conferences[i])
            && st'.conferences[i].startsAt == st.conferences[i].startsAt
            && st'.conferences[i].endsAt == st.conferences[i].endsAt)
    ensures Consistent(st')
  {
    forall x | x in st'.registrations ensures Repo.HasRow(st'.conferences, x.0) {
      var c :| c in st.conferences && c.id == x.0;
      var k :| 0 <= k < |st.conferences| && st.conferences[k] == c;
      assert st'.conferences[k].id == x.0;
    }
  }

  lemma StatusChangeKeepsConsistency(st: Store, id: Id, target: Status, now: Time, faults: set<Call>)
    requires Consistent(st)
    requires Conferences.UpdateConferenceStatus(st, id, target, now, faults).Ok?
    ensures Consistent(Conferences.UpdateConferenceStatus(st, id, target, now, faults).value)
  {
    var st' := Conferences.UpdateConferenceStatus(st, id, target, now, faults).value;
    var rows := st.conferences;
    var rows' := st'.conferences;
    StatusChangeRows(st, id, target, now, faults);
    forall x | x in st'.registrations ensures Repo.HasRow(rows', x.0) {
      var c :| c in rows && c.id == x.0;
      var k :| 0 <= k < |rows| && rows[k] == c;
      assert rows'[k].id == x.0;
    }
    forall i, j | 0 <= i < |rows'| && 0 <= j < |rows'| && i != j && Scheduled(rows'[i]) && Scheduled(rows'[j])
      ensures !Repo.Overlaps(rows'[i].startsAt, rows'[i].endsAt, rows'[j].startsAt, rows'[j].endsAt)
    {
      if rows[i].id == id {
        ApprovedWasChecked(st, id, target, now, faults, rows[j]);
        assert rows'[j] == rows[j];
      } else if rows[j].id == id {
        ApprovedWasChecked(st, id, target, now, faults, rows[i]);
        assert rows'[i] == rows[i];
      } else {
        assert rows'[i] == rows[i] && rows'[j] == rows[j];
      }
    }
  }

  /** A status change rewrites, in place, the status of the stored row with
      the id. */
  lemma StatusChangeRows(st: Store, id: Id, target: Status, now: Time, faults: set<Call>)
    requires UniqueConferenceIds(st.conferences)
    requires Conferences.UpdateConferenceStatus(st, id, target, now, faults).Ok?
    ensures var rows' := Conferences.UpdateConferenceStatus(st, id, target, now, faults).value.conferences;
      && |rows'| == |st.conferences|
      && forall i :: 0 <= i < |st.conferences| ==>
           rows'[i] == if st.conferences[i].id == id then st.conferences[i].(status := target, updatedAt := now) else st.conferences[i]
  {
    var original := Repo.GetConferenceById(st, id, faults).value;
    var row :| row in st.conferences && original == Repo.Scanned(row);
    forall i | 0 <= i < |st.conferences| && st.conferences[i].id == id ensures st.conferences[i] == row {
      FoundRowIsUnique(st.conferences, row, i);
    }
  }

  /** An approval succeeds only when no other live approved row meets the window. */
  lemma ApprovedWasChecked(st: Store, id: Id, target: Status, now: Time, faults: set<Call>, other: Conference)
    requires Conferences.UpdateConferenceStatus(st, id, target, now, faults).Ok?
    requires target == Approved
    requires other in st.conferences && other.id != id && Scheduled(other)
    ensures var c := Repo.GetConferenceById(st, id, faults).value;
      !Repo.Overlaps(c.startsAt, c.endsAt, other.startsAt, other.endsAt)
      && !Repo.Overlaps(other.startsAt, other.endsAt, c.startsAt, c.endsAt)
  {
  }

  lemma DeleteKeepsConsistency(st: Store, p: Principal, id: Id, now: Time, faults: set<Call>)
    requires Consistent(st)
    requires Conferences.DeleteConference(st, p, id, now, faults).Ok?
    ensures Consistent(Conferences.DeleteConference(st, p, id, now, faults).value)
  {
    RowwiseChangeKeepsConsistency(st, Conferences.DeleteConference(st, p, id, now, faults).value);
  }

  lemma RegisterKeepsConsistency(st: Store, p: Principal, cid: Id, uid: Id, now: Time, faults: set<Call>)
    requires Consistent(st)
    requires RegistrationService.Register(st, p, cid, uid, now, faults).Ok?
    ensures Consistent(RegistrationService.Register(st, p, cid, uid, now, faults).value)
  {
    var st' := RegistrationService.Register(st, p, cid, uid, now, faults).value;
    var c := Repo.GetConferenceById(st, cid, faults).value;
    var row :| row in st.conferences && c == Repo.Scanned(row);
    RegistrationService.RegisterTakesOneSeat(st, p, cid, uid, now, faults);
    forall i | 0 <= i < |st.conferences| && st.conferences[i].deletedAt.None?
      ensures SeatsHold(Registrations.Registrants(st'.registrations, st.conferences[i].id), st.conferences[i].seats)
    {
      if st.conferences[i].id == cid {
        FoundRowIsUnique(st.conferences, row, i);
      }
    }
  }

  /** Feedback never touches conferences or registrations. */
  lemma FeedbackKeepsConsistency(st: Store, p: Principal, uid: Id, cid: Id, comment: string, now: Time,
                                 newId: Option<Id>, id: Id, faults: set<Call>)
    requires Consistent(st)
    ensures FeedbackService.CreateFeedback(st, p, uid, cid, comment, now, newId, faults).Ok? ==>
      Consistent(FeedbackService.CreateFeedback(st, p, uid, cid, comment, now, newId, faults).value.1)
    ensures FeedbackService.DeleteFeedback(st, id, now, faults).Ok? ==>
      Consistent(FeedbackService.DeleteFeedback(st, id, now, faults).value)
  {
  }
}

=== FILE: ordering.dfy ===
/** ORDER BY: rows are ordered by a two-part key (major, minor), ascending or
    descending, the way the store's `ORDER BY a dir, b dir` clauses order them.
    Sorting is a stable insertion sort, so rows whose keys tie keep their
    storage order; SQL leaves that order unspecified, and this is one of the
    orders it may pick. */
module Ordering {
  import opened Base

  datatype Direction = Asc | Desc

  type Key = (int, int)

  /** Lexicographic order on keys. */
  predicate KeyLe(a: Key, b: Key) {
    a.0 < b.0 || (a.0 == b.0 && a.1 <= b.1)
  }

  /** Strict lexicographic order: SQL's row comparison `(a, b) < (c, d)`. */
  predicate KeyLt(a: Key, b: Key) {
    a.0 < b.0 || (a.0 == b.0 && a.1 < b.1)
  }

  /** `a` may come before `b` when ordering in direction `dir`. */
  predicate InOrder(a: Key, b: Key, dir: Direction) {
    if dir == Asc then KeyLe(a, b) else KeyLe(b, a)
  }

  predicate Sorted<T>(s: seq<T>, key: T -> Key, dir: Direction) {
    forall i, j :: 0 <= i < j < |s| ==> InOrder(key(s[i]), key(s[j]), dir)
  }

  /** Places `x` before the first element it may precede. */
  function Insert<T(!new)>(x: T, s: seq<T>, key: T -> Key, dir: Direction): (r: seq<T>)
    requires Sorted(s, key, dir)
    ensures Sorted(r, key, dir)
    ensures multiset(r) == multiset(s) + multiset{x}
    ensures forall y :: y in r <==> y == x || y in s
  {
    if |s| == 0 then [x]
    else if InOrder(key(x), key(s[0]), dir) then [x] + s
    else
      assert s == [s[0]] + s[1..];
      var rest := Insert(x, s[1..], key, dir);
      assert forall y :: y in rest ==> InOrder(key(s[0]), key(y), dir);
      [s[0]] + rest
  }

  /** The rows of `s` in key order. */
  function Sort<T(!new)>(s: seq<T>, key: T -> Key, dir: Direction): (r: seq<T>)
    ensures Sorted(r, key, dir)
    ensures multiset(r) == multiset(s)
    ensures |r| == |s|
    ensures forall y :: y in r <==> y in s
  {
    if |s| == 0 then []
    else
      assert s == [s[0]] + s[1..];
      Insert(s[0], Sort(s[1..], key, dir), key, dir)
  }

  /** Reading a descending sequence back to front gives an ascending one. */
  lemma {:induction false} ReverseOfDescendingIsAscending<T>(s: seq<T>, key: T -> Key)
    requires Sorted(s, key, Desc)
    ensures Sorted(Reverse(s), key, Asc)
  {
    var r := Reverse(s);
    forall i, j | 0 <= i < j < |r|
      ensures InOrder(key(r[i]), key(r[j]), Asc)
    {
      assert r[i] == s[|s| - 1 - i] && r[j] == s[|s| - 1 - j];
      assert InOrder(key(s[|s| - 1 - j]), key(s[|s| - 1 - i]), Desc);
    }
  }

  /** In a sorted sequence, the first `k` rows precede every row outside them. */
  lemma PrefixPrecedesRest<T(!new)>(s: seq<T>, key: T -> Key, dir: Direction, k: nat)
    requires Sorted(s, key, dir)
    requires k <= |s|
    ensures forall x, y :: x in s[..k] && y in s && y !in s[..k] ==> InOrder(key(x), key(y), dir)
  {
    forall x, y | x in s[..k] && y in s && y !in s[..k]
      ensures InOrder(key(x), key(y), dir)
    {
      var i :| 0 <= i < k && s[i] == x;
      var j :| 0 <= j < |s| && s[j] == y;
    }
  }
}

=== FILE: paging.dfy ===
/** Keyset pagination. Every listing asks the store for `limit + 1` rows in
    query order and uses the extra row only to learn whether more exist. The
    two repositories differ in what they do with that extra row:
    - the conference listing always drops the last fetched row and never
      reverses (conference_repository.go);
    - the registration and feedback listings query backward pages in
      descending order, drop the FIRST fetched row of an overflowing backward
      page, and then reverse the page into ascending order. */
module Paging {
  import opened Base
  import opened Ordering

  /** Conference listing: fetch `limit + 1`, drop the extra last row. */
  function ListPage<T>(ordered: seq<T>, limit: nat): (r: (seq<T>, bool))
    ensures |r.0| == Min(limit, |ordered|)
    ensures r.0 == ordered[..|r.0|]
    ensures r.1 <==> |ordered| > limit
  {
    var fetched := Take(ordered, limit + 1);
    if |fetched| > limit then (fetched[..|fetched| - 1], true) else (fetched, false)
  }

  /** A page of sorted rows: the head of the ordering, sorted itself, and
      ahead of every row it leaves out. */
  lemma SortedListPage<T(!new)>(rows: seq<T>, key: T -> Key, dir: Direction, limit: nat)
    ensures var page := ListPage(Sort(rows, key, dir), limit).0;
      && |page| == Min(limit, |rows|)
      && (forall x :: x in page ==> x in rows)
      && multiset(page) <= multiset(rows)
      && Sorted(page, key, dir)
      && (forall x, y :: x in page && y in rows && y !in page ==> InOrder(key(x), key(y), dir))
  {
    var ordered := Sort(rows, key, dir);
    var page := ListPage(ordered, limit).0;
    assert page == ordered[..|page|];
    PrefixSubMultiset(ordered, |page|);
    PrefixPrecedesRest(ordered, key, dir, |page|);
  }

  /** Registration and feedback listings: fetch `limit + 1` in query order; on
      overflow keep the first `limit` rows of a forward page but drop the first
      row of a backward page; reverse a backward page. */
  function KeysetPage<T>(ordered: seq<T>, limit: nat, backward: bool): (seq<T>, bool) {
    var fetched := Take(ordered, limit + 1);
    var more := |fetched| > limit;
    var kept := if !more then fetched else if backward then fetched[1..] else fetched[..limit];
    (if backward then Reverse(kept) else kept, more)
  }

  /** What the keyset page holds, in terms of the full query result. */
  lemma KeysetPageShape<T>(ordered: seq<T>, limit: nat, backward: bool)
    ensures KeysetPage(ordered, limit, backward).1 <==> |ordered| > limit
    ensures |KeysetPage(ordered, limit, backward).0| <= limit
    ensures !backward ==> KeysetPage(ordered, limit, backward).0 == ordered[..Min(limit, |ordered|)]
    ensures backward && |ordered| > limit ==> KeysetPage(ordered, limit, backward).0 == Reverse(ordered[1..limit + 1])
    ensures backward && |ordered| <= limit ==> KeysetPage(ordered, limit, backward).0 == Reverse(ordered)
  {
  }

  /** A backward page read from a descending query comes back ascending, and a
      forward page of an ascending query stays ascending. */
  lemma KeysetPageAscending<T>(ordered: seq<T>, key: T -> Key, limit: nat, backward: bool)
    requires Sorted(ordered, key, if backward then Desc else Asc)
    ensures Sorted(KeysetPage(ordered, limit, backward).0, key, Asc)
  {
    KeysetPageShape(ordered, limit, backward);
    var page := KeysetPage(ordered, limit, backward).0;
    if backward {
      var kept := if |ordered| > limit then ordered[1..limit + 1] else ordered;
      assert page == Reverse(kept);
      assert Sorted(kept, key, Desc);
      ReverseOfDescendingIsAscending(kept, key);
    } else {
      assert page == ordered[..Min(limit, |ordered|)];
    }
  }

  /** Every row of a keyset page is a row of the query result. */
  lemma KeysetPageRows<T(!new)>(ordered: seq<T>, limit: nat, backward: bool)
    ensures forall x :: x in KeysetPage(ordered, limit, backward).0 ==> x in ordered
  {
    KeysetPageShape(ordered, limit, backward);
    var kept := if !backward then ordered[..Min(limit, |ordered|)]
                else if |ordered| > limit then ordered[1..limit + 1] else ordered;
    ReverseSameElements(kept);
    forall x | x in KeysetPage(ordered, limit, backward).0 ensures x in ordered {
      assert x in kept;
    }
  }

  /** Which rows a keyset page keeps: never a row the query did not return;
      every row when nothing overflows; on a backward overflow, everything but
      the first fetched row, the one nearest the cursor. */
  lemma KeysetPageMultiset<T>(ordered: seq<T>, limit: nat, backward: bool)
    ensures multiset(KeysetPage(ordered, limit, backward).0) <= multiset(ordered)
    ensures |ordered| <= limit ==> multiset(KeysetPage(ordered, limit, backward).0) == multiset(ordered)
    ensures backward && |ordered| > limit ==>
      multiset(KeysetPage(ordered, limit, backward).0) + multiset{ordered[0]} == multiset(ordered[..limit + 1])
  {
    KeysetPageShape(ordered, limit, backward);
    if backward && |ordered| > limit {
      BackwardOverflowMultiset(ordered, limit);
    } else if backward {
      ReversePermutes(ordered);
    } else if |ordered| <= limit {
      assert ordered[..|ordered|] == ordered;
    } else {
      PrefixSubMultiset(ordered, limit);
    }
  }

  lemma BackwardOverflowMultiset<T>(ordered: seq<T>, limit: nat)
    requires |ordered| > limit
    ensures multiset(Reverse(ordered[1..limit + 1])) + multiset{ordered[0]} == multiset(ordered[..limit + 1])
    ensures multiset(ordered[..limit + 1]) <= multiset(ordered)
  {
    var kept := ordered[1..limit + 1];
    ReversePermutes(kept);
    assert ordered[..limit + 1] == [ordered[0]] + kept;
    PrefixSubMultiset(ordered, limit + 1);
  }

  /** The row with the largest key: the one nearest a before-cursor. */
  ghost predicate Nearest<T>(s: seq<T>, x: T, key: T -> Key) {
    x in s && forall y :: y in s ==> KeyLe(key(y), key(x))
  }

  /** A registration or feedback listing over its candidate rows: query them in
      key order (descending for a backward page), then trim and reverse. */
  function KeysetList<T(!new)>(all: seq<T>, key: T -> Key, limit: nat, backward: bool): (r: (seq<T>, bool))
    ensures |r.0| <= limit
    ensures r.1 <==> |all| > limit
    ensures multiset(r.0) <= multiset(all)
    ensures forall x :: x in r.0 ==> x in all
    ensures Sorted(r.0, key, Asc)
    ensures !r.1 ==> multiset(r.0) == multiset(all)
  {
    var ordered := Sort(all, key, if backward then Desc else Asc);
    KeysetPageShape(ordered, limit, backward);
    KeysetPageAscending(ordered, key, limit, backward);
    KeysetPageMultiset(ordered, limit, backward);
    KeysetPageRows(ordered, limit, backward);
    KeysetPage(ordered, limit, backward)
  }

  /** A forward page is the head of the candidates in key order. */
  lemma KeysetListForwardIsHead<T(!new)>(all: seq<T>, key: T -> Key, limit: nat)
    ensures |KeysetList(all, key, limit, false).0| == Min(limit, |all|)
    ensures forall x, y :: x in KeysetList(all, key, limit, false).0 && y in all && y !in KeysetList(all, key, limit, false).0 ==>
      KeyLe(key(x), key(y))
  {
    var ordered := Sort(all, key, Asc);
    KeysetPageShape(ordered, limit, false);
    PrefixPrecedesRest(ordered, key, Asc, Min(limit, |ordered|));
  }

  /** The head of the candidates sorted descending is their nearest row. */
  lemma SortedDescHeadIsNearest<T(!new)>(all: seq<T>, key: T -> Key)
    requires |all| > 0
    ensures Nearest(all, Sort(all, key, Desc)[0], key)
  {
    var ordered := Sort(all, key, Desc);
    DescendingHeadIsNearest(ordered, key);
    assert forall y :: y in all <==> y in ordered;
  }

  /** The head of a descending sequence is its nearest row. */
  lemma DescendingHeadIsNearest<T>(ordered: seq<T>, key: T -> Key)
    requires Sorted(ordered, key, Desc) && |ordered| > 0
    ensures Nearest(ordered, ordered[0], key)
  {
    forall y | y in ordered ensures KeyLe(key(y), key(ordered[0])) {
      var j :| 0 <= j < |ordered| && ordered[j] == y;
      if j > 0 {
        assert InOrder(key(ordered[0]), key(ordered[j]), Desc);
      }
    }
  }

  /** A backward page that overflows is full, and what it leaves out of the
      fetched rows is the candidate nearest the cursor. */
  lemma KeysetListBackwardDropsNearest<T(!new)>(all: seq<T>, key: T -> Key, limit: nat)
    requires |all| > limit
    ensures |KeysetList(all, key, limit, true).0| == limit
    ensures exists n :: Nearest(all, n, key) && multiset(KeysetList(all, key, limit, true).0) + multiset{n} <= multiset(all)
  {
    var ordered := Sort(all, key, Desc);
    KeysetListIsPage(all, key, limit, true);
    BackwardOverflowPage(ordered, limit);
    SortedDescHeadIsNearest(all, key);
    assert Nearest(all, ordered[0], key);
  }

  lemma KeysetListIsPage<T(!new)>(all: seq<T>, key: T -> Key, limit: nat, backward: bool)
    ensures KeysetList(all, key, limit, backward) == KeysetPage(Sort(all, key, if backward then Desc else Asc), limit, backward)
  {
  }

  /** What an overflowing backward page keeps of the query result. */
  lemma BackwardOverflowKeeps<T>(ordered: seq<T>, limit: nat)
    requires |ordered| > limit
    ensures KeysetPage(ordered, limit, true) == (Reverse(ordered[1..limit + 1]), true)
  {
    assert Take(ordered, limit + 1)[1..] == ordered[1..limit + 1];
  }

  /** An overflowing backward page is full and lacks the first fetched row. */
  lemma BackwardOverflowPage<T>(ordered: seq<T>, limit: nat)
    requires |ordered| > limit
    ensures |KeysetPage(ordered, limit, true).0| == limit
    ensures multiset(KeysetPage(ordered, limit, true).0) + multiset{ordered[0]} <= multiset(ordered)
  {
    BackwardOverflowKeeps(ordered, limit);
    BackwardOverflowMultiset(ordered, limit);
  }

  // ---------------------------------------------------------------------------
  // Walking backward, page by page
  // ---------------------------------------------------------------------------

  /** The backward trim the paging design asks for: on overflow keep the
      `limit` fetched rows nearest the cursor and drop the farthest one, then
      reverse. Forward pages are as KeysetPage builds them. */
  function KeysetPageCorrected<T>(ordered: seq<T>, limit: nat, backward: bool): (r: (seq<T>, bool))
    ensures r.1 <==> |ordered| > limit
    ensures !backward ==> r.0 == ordered[..Min(limit, |ordered|)]
    // read back in query order, a backward page is the head of the query
    ensures backward ==> Reverse(r.0) == ordered[..Min(limit, |ordered|)]
  {
    var fetched := Take(ordered, limit + 1);
    var more := |fetched| > limit;
    var kept := if more then fetched[..limit] else fetched;
    ReverseTwice(kept);
    (if backward then Reverse(kept) else kept, more)
  }

  /** Over the rows before position `k` of an ascending listing, queried
      nearest first, an overflowing backward page is a slice of the listing:
      with the corrected trim, the `limit` rows just before `k`; */
  lemma CorrectedPageIsSlice<T>(all: seq<T>, k: nat, limit: nat)
    requires limit < k <= |all|
    ensures KeysetPageCorrected(Reverse(all[..k]), limit, true).0 == all[k - limit..k]
  {
    var before := Reverse(all[..k]);
    assert KeysetPageCorrected(before, limit, true).0 == Reverse(before[0..limit]);
    ReversedSlice(all, k, limit, 0);
  }

  /** with the trim as written, the `limit` rows before those, skipping
      row `k - 1`. */
  lemma AsWrittenPageIsSlice<T>(all: seq<T>, k: nat, limit: nat)
    requires limit < k <= |all|
    ensures KeysetPage(Reverse(all[..k]), limit, true).0 == all[k - limit - 1..k - 1]
  {
    BackwardOverflowKeeps(Reverse(all[..k]), limit);
    ReversedSlice(all, k, limit, 1);
  }

  /** Read nearest first from position `k`, the `limit` rows after the first
      `skip` ones, reversed again, are a slice of the listing. */
  lemma ReversedSlice<T>(all: seq<T>, k: nat, limit: nat, skip: nat)
    requires limit + skip <= k <= |all|
    ensures Reverse(Reverse(all[..k])[skip..skip + limit]) == all[k - skip - limit..k - skip]
  {
    ReverseOfReversedSlice(all[..k], skip, skip + limit);
    assert all[..k][k - skip - limit..k - skip] == all[k - skip - limit..k - skip];
  }

  /** The rows a client collects walking backward through the ascending
      listing `all`, starting before position `k`. Each request reads the rows
      before the cursor, nearest first; the next cursor is the page's first
      row, whose position CorrectedPageIsSlice and AsWrittenPageIsSlice give. With keys strictly
      increasing along `all`, the rows before `all[j]` are exactly `all[..j]`.
      `corrected` picks the trim. */
  function BackwardWalk<T>(all: seq<T>, k: nat, limit: nat, corrected: bool): (r: seq<T>)
    requires k <= |all| && limit > 0
    ensures |r| <= k
    decreases k
  {
    var before := Reverse(all[..k]);
    var page := if corrected then KeysetPageCorrected(before, limit, true) else KeysetPage(before, limit, true);
    assert page.1 <==> k > limit;
    if !page.1 then page.0
    else
      var next := if corrected then k - limit else k - limit - 1;
      BackwardWalk(all, next, limit, corrected) + page.0
  }

  /** With the corrected trim, walking backward from the end of the listing
      collects the whole listing, in forward order. */
  lemma {:induction false} BackwardWalkReconstructs<T>(all: seq<T>, k: nat, limit: nat)
    requires k <= |all| && limit > 0
    ensures BackwardWalk(all, k, limit, true) == all[..k]
  {
    if k <= limit {
      LastCorrectedPage(all, k, limit);
    } else {
      CorrectedPageIsSlice(all, k, limit);
      assert BackwardWalk(all, k, limit, true) == BackwardWalk(all, k - limit, limit, true) + all[k - limit..k];
      BackwardWalkReconstructs(all, k - limit, limit);
      assert all[..k] == all[..k - limit] + all[k - limit..k];
    }
  }

  /** The walk's last page, once no more rows overflow, is everything left. */
  lemma LastCorrectedPage<T>(all: seq<T>, k: nat, limit: nat)
    requires k <= |all| && 0 < limit && k <= limit
    ensures BackwardWalk(all, k, limit, true) == all[..k]
  {
    var before := Reverse(all[..k]);
    assert Take(before, limit + 1) == before;
    assert BackwardWalk(all, k, limit, true) == Reverse(before);
    ReverseTwice(all[..k]);
  }

  /** With the trim as written, a walk that meets an overflowing page comes
      back with fewer rows than the listing holds. */
  lemma {:induction false} BackwardWalkAsWrittenLoses<T>(all: seq<T>, k: nat, limit: nat)
    requires 0 < limit < k <= |all|
    ensures |BackwardWalk(all, k, limit, false)| < k
  {
    AsWrittenPageIsSlice(all, k, limit);
  }

  /** Three rows, two per page: as written the walk returns the first two and
      never the third, the row just before the starting cursor. */
  lemma BackwardWalkAsWrittenExample()
    ensures BackwardWalk([1, 2, 3], 3, 2, false) == [1, 2]
    ensures BackwardWalk([1, 2, 3], 3, 2, true) == [1, 2, 3]
  {
    AsWrittenPageIsSlice([1, 2, 3], 3, 2);
    assert BackwardWalk([1, 2, 3], 0, 2, false) == [];
    BackwardWalkReconstructs([1, 2, 3], 3, 2);
  }
}

=== FILE: registration_repository.dfy ===
/** The registration repository
    (internal/app/registration/repository/registration_repository.go):
    membership and counting over the registrations table, the personal
    conflict query, and the two keyset listings. */
module RegistrationRepository {
  import opened Base
  import opened Ordering
  import opened Domain
  import opened Paging
  import Repo = ConferenceRepository

  // ---------------------------------------------------------------------------
  // Membership, counting, insertion
  // ---------------------------------------------------------------------------

  /** The users registered to conference `cid`. */
  function Registrants(regs: set<Registration>, cid: Id): (r: set<Id>)
    ensures forall u :: u in r <==> (cid, u) in regs
  {
    set x | x in regs && x.0 == cid :: x.1
  }

  /** IsUserRegisteredToConference: `SELECT EXISTS` over the pair. */
  function IsUserRegisteredToConference(st: Store, cid: Id, uid: Id, faults: set<Call>): (r: Result<bool, DbError>)
    ensures r.Err? <==> RegistrationCheck in faults
    ensures r.Ok? ==> (r.value <==> uid in Registrants(st.registrations, cid))
  {
    if RegistrationCheck in faults then Err(DriverFailure) else Ok((cid, uid) in st.registrations)
  }

  /** CountRegistrationsByConference: `COUNT(*)` of the conference's rows. */
  function CountRegistrationsByConference(st: Store, cid: Id, faults: set<Call>): (r: Result<nat, DbError>)
    ensures r.Err? <==> RegistrationCount in faults
    ensures r.Ok? ==> r.value == |Registrants(st.registrations, cid)|
    ensures r.Ok? ==> (r.value == 0 <==> forall x :: x in st.registrations ==> x.0 != cid)
  {
    if RegistrationCount in faults then Err(DriverFailure)
    else
      var users := Registrants(st.registrations, cid);
      if forall x :: x in st.registrations ==> x.0 != cid then
        assert users == {};
        Ok(|users|)
      else
        var x :| x in st.registrations && x.0 == cid;
        assert x.1 in users;
        Ok(|users|)
  }

  /** CreateRegistration: inserts the pair (a set absorbs a repeated pair). */
  function CreateRegistration(st: Store, cid: Id, uid: Id, faults: set<Call>): (r: Result<Store, DbError>)
    ensures r.Err? <==> RegistrationCreate in faults
    ensures r.Ok? ==> r.value.conferences == st.conferences && r.value.feedbacks == st.feedbacks && r.value.users == st.users
    ensures r.Ok? ==> r.value.registrations - st.registrations <= {(cid, uid)} && st.registrations <= r.value.registrations
    ensures r.Ok? ==> uid in Registrants(r.value.registrations, cid)
  {
    if RegistrationCreate in faults then Err(DriverFailure)
    else Ok(st.(registrations := st.registrations + {(cid, uid)}))
  }

  /** A new pair raises its conference's count by exactly one and leaves every
      other conference's count alone. */
  lemma {:induction false} RegisteringCountsOnce(regs: set<Registration>, cid: Id, uid: Id, other: Id)
    requires (cid, uid) !in regs
    ensures |Registrants(regs + {(cid, uid)}, cid)| == |Registrants(regs, cid)| + 1
    ensures other != cid ==> Registrants(regs + {(cid, uid)}, other) == Registrants(regs, other)
  {
    assert Registrants(regs + {(cid, uid)}, cid) == Registrants(regs, cid) + {uid};
    assert uid !in Registrants(regs, cid);
  }

  // ---------------------------------------------------------------------------
  // GetConflictingRegistrations
  // ---------------------------------------------------------------------------

  /** SQL's `x BETWEEN lo AND hi`: both ends included. */
  predicate Between(x: Time, lo: Time, hi: Time) {
    lo <= x <= hi
  }

  /** The BETWEEN disjunction of the personal conflict query, with the
      conference's window as [cs, ce] and the requested one as [s, e]. */
  predicate ClosedConflict(c: Conference, startsAt: Time, endsAt: Time) {
    || Between(startsAt, c.startsAt, c.endsAt)
    || Between(endsAt, c.startsAt, c.endsAt)
    || Between(c.startsAt, startsAt, endsAt)
  }

  /** A row the personal conflict query returns: registered by the user, not
      deleted, window meeting the requested one. The status is not looked at. */
  predicate RegisteredConflict(st: Store, uid: Id, c: Conference, startsAt: Time, endsAt: Time) {
    (c.id, uid) in st.registrations && c.deletedAt.None? && ClosedConflict(c, startsAt, endsAt)
  }

  function GetConflictingRegistrations(st: Store, uid: Id, startsAt: Time, endsAt: Time, faults: set<Call>)
    : (r: Result<seq<Conference>, DbError>)
    ensures r.Err? <==> RegistrationConflicts in faults
    ensures r.Ok? ==> forall c :: c in r.value <==> c in st.conferences && RegisteredConflict(st, uid, c, startsAt, endsAt)
    ensures r.Ok? ==> multiset(r.value) <= multiset(st.conferences)
  {
    if RegistrationConflicts in faults then Err(DriverFailure)
    else Ok(Filter(st.conferences, c => RegisteredConflict(st, uid, c, startsAt, endsAt)))
  }

  /** For well-formed windows the BETWEEN disjunction is closed-interval
      intersection. */
  lemma ClosedConflictIsIntersection(c: Conference, startsAt: Time, endsAt: Time)
    requires c.startsAt <= c.endsAt && startsAt <= endsAt
    ensures ClosedConflict(c, startsAt, endsAt) <==> c.startsAt <= endsAt && startsAt <= c.endsAt
  {
  }

  /** Every half-open overlap the conference conflict check finds is also a
      closed conflict here. */
  lemma HalfOpenOverlapIsClosedConflict(c: Conference, startsAt: Time, endsAt: Time)
    requires c.startsAt <= c.endsAt && startsAt <= endsAt
    requires Repo.Overlaps(c.startsAt, c.endsAt, startsAt, endsAt)
    ensures ClosedConflict(c, startsAt, endsAt)
  {
  }

  /** Back-to-back sessions differ: they conflict here, but not for the
      conference conflict check. */
  lemma AbuttingWindowsDiffer(c: Conference, endsAt: Time)
    requires c.startsAt <= c.endsAt <= endsAt
    ensures ClosedConflict(c, c.endsAt, endsAt)
    ensures !Repo.Overlaps(c.startsAt, c.endsAt, c.endsAt, endsAt)
  {
  }

  /** A window the registered session lies strictly after, or strictly before,
      does not conflict. */
  lemma DisjointWindowsDoNotConflict(c: Conference, startsAt: Time, endsAt: Time)
    requires c.startsAt <= c.endsAt && startsAt <= endsAt
    requires endsAt < c.startsAt || c.endsAt < startsAt
    ensures !ClosedConflict(c, startsAt, endsAt)
  {
  }

  // ---------------------------------------------------------------------------
  // GetRegisteredUsersByConference
  // ---------------------------------------------------------------------------

  /** The users the registrant listing may return: registered to `cid` and
      strictly inside the cursors that are set. */
  predicate RegistrantCandidate(st: Store, cid: Id, lazy: LazyLoadQuery, u: UserRow) {
    && (cid, u.id) in st.registrations
    && (lazy.afterId != Nil ==> u.id > lazy.afterId)
    && (lazy.beforeId != Nil ==> u.id < lazy.beforeId)
  }

  function RegistrantCandidates(st: Store, cid: Id, lazy: LazyLoadQuery): (r: seq<UserRow>)
    ensures forall u :: u in r <==> u in st.users && RegistrantCandidate(st, cid, lazy, u)
    ensures multiset(r) <= multiset(st.users)
  {
    Filter(st.users, u => RegistrantCandidate(st, cid, lazy, u))
  }

  /** A backward query runs in descending order; the page is reversed after. */
  function Backward(lazy: LazyLoadQuery): bool {
    lazy.beforeId != Nil
  }

  function GetRegisteredUsersByConference(st: Store, cid: Id, lazy: LazyLoadQuery, faults: set<Call>)
    : (r: Result<(seq<UserRow>, PageInfo), DbError>)
    requires lazy.limit >= 1
    ensures r.Err? <==> RegisteredUsers in faults
    ensures r.Ok? ==> |r.value.0| <= lazy.limit
    ensures r.Ok? ==> (r.value.1.hasMore <==> |RegistrantCandidates(st, cid, lazy)| > lazy.limit)
    ensures r.Ok? ==> forall u :: u in r.value.0 ==> u in st.users && RegistrantCandidate(st, cid, lazy, u)
    ensures r.Ok? ==> multiset(r.value.0) <= multiset(RegistrantCandidates(st, cid, lazy))
    ensures r.Ok? && !r.value.1.hasMore ==> multiset(r.value.0) == multiset(RegistrantCandidates(st, cid, lazy))
    ensures r.Ok? ==> Sorted(r.value.0, UserIdKey, Asc)
    ensures r.Ok? ==> DescribesPage(r.value.1, r.value.0, UserId)
  {
    if RegisteredUsers in faults then Err(DriverFailure)
    else
      var (page, more) := KeysetList(RegistrantCandidates(st, cid, lazy), UserIdKey, lazy.limit, Backward(lazy));
      Ok((page, Envelope(page, more, UserId)))
  }

  /** A forward page holds the registrants with the smallest ids past the cursor. */
  lemma RegistrantsForwardPageIsHead(st: Store, cid: Id, lazy: LazyLoadQuery, faults: set<Call>)
    requires lazy.limit >= 1 && RegisteredUsers !in faults && !Backward(lazy)
    ensures var page := GetRegisteredUsersByConference(st, cid, lazy, faults).value.0;
      && |page| == Min(lazy.limit, |RegistrantCandidates(st, cid, lazy)|)
      && forall x, y :: x in page && y in RegistrantCandidates(st, cid, lazy) && y !in page ==> x.id <= y.id
  {
    var all := RegistrantCandidates(st, cid, lazy);
    var page := KeysetList(all, UserIdKey, lazy.limit, false).0;
    assert GetRegisteredUsersByConference(st, cid, lazy, faults).value.0 == page;
    KeysetListForwardIsHead(all, UserIdKey, lazy.limit);
    forall x, y | x in page && y in all && y !in page ensures x.id <= y.id {
      assert KeyLe(UserIdKey(x), UserIdKey(y));
    }
  }

  /** A backward page that overflows leaves out the registrant nearest the
      cursor, the one with the largest id below it. */
  lemma RegistrantsBackwardOverflowDropsNearest(st: Store, cid: Id, lazy: LazyLoadQuery, faults: set<Call>)
    requires lazy.limit >= 1 && RegisteredUsers !in faults && Backward(lazy)
    requires GetRegisteredUsersByConference(st, cid, lazy, faults).value.1.hasMore
    ensures var page := GetRegisteredUsersByConference(st, cid, lazy, faults).value.0;
      var all := RegistrantCandidates(st, cid, lazy);
      && |page| == lazy.limit
      && exists n :: Nearest(all, n, UserIdKey) && multiset(page) + multiset{n} <= multiset(all)
  {
    KeysetListBackwardDropsNearest(RegistrantCandidates(st, cid, lazy), UserIdKey, lazy.limit);
  }

  // ---------------------------------------------------------------------------
  // GetRegisteredConferencesByUser
  // ---------------------------------------------------------------------------

  /** The cursor subquery `SELECT starts_at FROM conferences WHERE id = $n`:
      the start of a row with that id, deleted or not; absent when there is no
      such row, and then every comparison with it is unknown. */
  function CursorStart(rows: seq<Conference>, id: Id): (r: Option<Time>)
    ensures r.Some? ==> exists c :: c in rows && c.id == id && c.startsAt == r.value
    ensures r.None? <==> !Repo.HasRow(rows, id)
  {
    if |rows| == 0 then None
    else if rows[0].id == id then Some(rows[0].startsAt)
    else
      assert rows == [rows[0]] + rows[1..];
      CursorStart(rows[1..], id)
  }

  /** The conferences the user's listing may return. There is no deleted_at
      filter here; the cursors compare starts_at only. */
  predicate AttendedCandidate(st: Store, uid: Id, includePast: bool, lazy: LazyLoadQuery, now: Time, c: Conference) {
    && (c.id, uid) in st.registrations
    && (includePast || c.endsAt > now)
    && (lazy.afterId != Nil ==>
          var s := CursorStart(st.conferences, lazy.afterId); s.Some? && c.startsAt > s.value)
    && (lazy.beforeId != Nil ==>
          var s := CursorStart(st.conferences, lazy.beforeId); s.Some? && c.startsAt < s.value)
  }

  /** The candidates as the query scans them (the SELECT list leaves out
      registration_count). */
  function AttendedCandidates(st: Store, uid: Id, includePast: bool, lazy: LazyLoadQuery, now: Time): (r: seq<Conference>)
    ensures forall c :: c in r <==> c in Repo.ScannedRows(st.conferences) && AttendedCandidate(st, uid, includePast, lazy, now, c)
    ensures multiset(r) <= multiset(Repo.ScannedRows(st.conferences))
  {
    Filter(Repo.ScannedRows(st.conferences), c => AttendedCandidate(st, uid, includePast, lazy, now, c))
  }

  function GetRegisteredConferencesByUser(st: Store, uid: Id, includePast: bool, lazy: LazyLoadQuery,
                                          now: Time, faults: set<Call>)
    : (r: Result<(seq<Conference>, PageInfo), DbError>)
    requires lazy.limit >= 1
    ensures r.Err? <==> RegisteredConferences in faults
    ensures r.Ok? ==> |r.value.0| <= lazy.limit
    ensures r.Ok? ==> (r.value.1.hasMore <==> |AttendedCandidates(st, uid, includePast, lazy, now)| > lazy.limit)
    ensures r.Ok? ==> forall c :: c in r.value.0 ==>
      c in Repo.ScannedRows(st.conferences) && c.registrationCount == 0 && AttendedCandidate(st, uid, includePast, lazy, now, c)
    ensures r.Ok? ==> multiset(r.value.0) <= multiset(AttendedCandidates(st, uid, includePast, lazy, now))
    ensures r.Ok? && !r.value.1.hasMore ==> multiset(r.value.0) == multiset(AttendedCandidates(st, uid, includePast, lazy, now))
    ensures r.Ok? ==> Sorted(r.value.0, StartsAtKey, Asc)
    ensures r.Ok? ==> DescribesPage(r.value.1, r.value.0, ConferenceId)
  {
    if RegisteredConferences in faults then Err(DriverFailure)
    else
      var (page, more) := KeysetList(AttendedCandidates(st, uid, includePast, lazy, now), StartsAtKey, lazy.limit, Backward(lazy));
      Ok((page, Envelope(page, more, ConferenceId)))
  }

  /** A forward page holds the earliest-starting registered conferences past the cursor. */
  lemma AttendedForwardPageIsHead(st: Store, uid: Id, includePast: bool, lazy: LazyLoadQuery, now: Time, faults: set<Call>)
    requires lazy.limit >= 1 && RegisteredConferences !in faults && !Backward(lazy)
    ensures var page := GetRegisteredConferencesByUser(st, uid, includePast, lazy, now, faults).value.0;
      var all := AttendedCandidates(st, uid, includePast, lazy, now);
      && |page| == Min(lazy.limit, |all|)
      && forall x, y :: x in page && y in all && y !in page ==> x.startsAt <= y.startsAt
  {
    var all := AttendedCandidates(st, uid, includePast, lazy, now);
    var page := KeysetList(all, StartsAtKey, lazy.limit, false).0;
    assert GetRegisteredConferencesByUser(st, uid, includePast, lazy, now, faults).value.0 == page;
    KeysetListForwardIsHead(all, StartsAtKey, lazy.limit);
    forall x, y | x in page && y in all && y !in page ensures x.startsAt <= y.startsAt {
      assert KeyLe(StartsAtKey(x), StartsAtKey(y));
    }
  }

  /** A backward page that overflows leaves out the conference starting
      latest before the cursor. */
  lemma AttendedBackwardOverflowDropsNearest(st: Store, uid: Id, includePast: bool, lazy: LazyLoadQuery, now: Time, faults: set<Call>)
    requires lazy.limit >= 1 && RegisteredConferences !in faults && Backward(lazy)
    requires GetRegisteredConferencesByUser(st, uid, includePast, lazy, now, faults).value.1.hasMore
    ensures var page := GetRegisteredConferencesByUser(st, uid, includePast, lazy, now, faults).value.0;
      var all := AttendedCandidates(st, uid, includePast, lazy, now);
      && |page| == lazy.limit
      && exists n :: Nearest(all, n, StartsAtKey) && multiset(page) + multiset{n} <= multiset(all)
  {
    KeysetListBackwardDropsNearest(AttendedCandidates(st, uid, includePast, lazy, now), StartsAtKey, lazy.limit);
  }

  /** A cursor naming no conference yields an empty page. */
  lemma UnknownCursorYieldsNothing(st: Store, uid: Id, includePast: bool, lazy: LazyLoadQuery, now: Time, faults: set<Call>)
    requires lazy.limit >= 1 && RegisteredConferences !in faults
    requires lazy.afterId != Nil && !Repo.HasRow(st.conferences, lazy.afterId)
    ensures AttendedCandidates(st, uid, includePast, lazy, now) == []
    ensures GetRegisteredConferencesByUser(st, uid, includePast, lazy, now, faults).value.0 == []
  {
    var all := AttendedCandidates(st, uid, includePast, lazy, now);
    assert CursorStart(st.conferences, lazy.afterId).None?;
    NothingPasses(Repo.ScannedRows(st.conferences), c => AttendedCandidate(st, uid, includePast, lazy, now, c));
    assert all == [];
    assert KeysetList(all, StartsAtKey, lazy.limit, Backward(lazy)).0 == [];
  }
}

=== FILE: registration_service.dfy ===
/** The registration service
    (internal/app/registration/service/registration_service.go): the admission
    chain of Register and the guards of the two registration listings. */
module RegistrationService {
  import opened Base
  import opened Domain
  import opened ConferenceDto
  import Conferences = ConferenceService
  import Repo = ConferenceRepository
  import opened RegistrationRepository

  /** The user already holds a seat in a session whose window meets [s, e]. */
  predicate HasPersonalConflict(st: Store, uid: Id, startsAt: Time, endsAt: Time) {
    exists c :: c in st.conferences && RegisteredConflict(st, uid, c, startsAt, endsAt)
  }

  function Register(st: Store, p: Principal, cid: Id, uid: Id, now: Time, faults: set<Call>): (r: Result<Store, Error>)
    // the checks, in the order they are tried
    ensures var v := Conferences.GetConferenceById(st, p, cid, faults);
      && (v.Err? ==> r == Err(v.error))
      && (v.Ok? && v.value.hostId == uid ==> r == Err(HostCannotRegister))
      && (v.Ok? && v.value.hostId != uid && v.value.endsAt < now ==> r == Err(ConferenceEnded))
      && (v.Ok? && v.value.hostId != uid && v.value.endsAt >= now ==>
            var c := v.value;
            var taken := |Registrants(st.registrations, cid)|;
            && (RegistrationCheck in faults ==> r == Err(Internal))
            && (RegistrationCheck !in faults && (cid, uid) in st.registrations ==> r == Err(AlreadyRegistered))
            && (RegistrationCheck !in faults && (cid, uid) !in st.registrations ==>
                  && (RegistrationCount in faults ==> r == Err(Internal))
                  && (RegistrationCount !in faults && taken >= c.seats ==> r == Err(ConferenceFull))
                  && (RegistrationCount !in faults && taken < c.seats ==>
                        && (RegistrationConflicts in faults ==> r == Err(Internal))
                        && (RegistrationConflicts !in faults && HasPersonalConflict(st, uid, c.startsAt, c.endsAt) ==>
                              r.Err? && r.error.ConflictingRegistrations? && |r.error.conflicts| > 0)
                        && (RegistrationConflicts !in faults && !HasPersonalConflict(st, uid, c.startsAt, c.endsAt) ==>
                              (r.Ok? <==> RegistrationCreate !in faults) && (r.Err? ==> r == Err(Internal))))))
    // a success adds exactly the new pair, within the seat count
    ensures r.Ok? ==>
      && (cid, uid) !in st.registrations
      && r.value == st.(registrations := st.registrations + {(cid, uid)})
      && Conferences.GetConferenceById(st, p, cid, faults).Ok?
      && |Registrants(st.registrations, cid)| < Conferences.GetConferenceById(st, p, cid, faults).value.seats
  {
    match Conferences.GetConferenceById(st, p, cid, faults)
    case Err(e) => Err(e)
    case Ok(c) =>
      if c.hostId == uid then Err(HostCannotRegister)
      else if c.endsAt < now then Err(ConferenceEnded)
      else match IsUserRegisteredToConference(st, cid, uid, faults)
        case Err(_) => Err(Internal)
        case Ok(registered) =>
          if registered then Err(AlreadyRegistered)
          else match CountRegistrationsByConference(st, cid, faults)
            case Err(_) => Err(Internal)
            case Ok(taken) =>
              if taken >= c.seats then Err(ConferenceFull)
              else match GetConflictingRegistrations(st, uid, c.startsAt, c.endsAt, faults)
                case Err(_) => Err(Internal)
                case Ok(conflicts) =>
                  if |conflicts| > 0 then
                    assert conflicts[0] in conflicts;
                    Err(ConflictingRegistrations(Ids(conflicts)))
                  else
                    match CreateRegistration(st, cid, uid, faults)
                    case Err(_) => Err(Internal)
                    case Ok(st') => Ok(st')
  }

  /** A successful registration takes one seat and never more seats than exist. */
  lemma RegisterTakesOneSeat(st: Store, p: Principal, cid: Id, uid: Id, now: Time, faults: set<Call>)
    requires Register(st, p, cid, uid, now, faults).Ok?
    ensures var st' := Register(st, p, cid, uid, now, faults).value;
      && |Registrants(st'.registrations, cid)| == |Registrants(st.registrations, cid)| + 1
      && |Registrants(st'.registrations, cid)| <= Conferences.GetConferenceById(st, p, cid, faults).value.seats
      && forall other :: other != cid ==> Registrants(st'.registrations, other) == Registrants(st.registrations, other)
  {
    forall other | true
      ensures |Registrants(st.registrations + {(cid, uid)}, cid)| == |Registrants(st.registrations, cid)| + 1
      ensures other != cid ==> Registrants(st.registrations + {(cid, uid)}, other) == Registrants(st.registrations, other)
    {
      RegisteringCountsOnce(st.registrations, cid, uid, other);
    }
  }

  /** A plain user can only register to an approved conference: a conference
      that is not approved is visible to its host alone, and the host is refused. */
  lemma UsersRegisterOnlyToApproved(st: Store, p: Principal, cid: Id, uid: Id, now: Time, faults: set<Call>)
    requires p.role == Some(User) && p.id == Some(uid)
    requires Register(st, p, cid, uid, now, faults).Ok?
    ensures Repo.GetConferenceById(st, cid, faults).Ok?
    ensures Repo.GetConferenceById(st, cid, faults).value.status == Approved
  {
  }

  // ---------------------------------------------------------------------------
  // Listings
  // ---------------------------------------------------------------------------

  /** Both cursors at once is refused before anything else. */
  predicate BothCursors(lazy: LazyLoadQuery) {
    lazy.afterId != Nil && lazy.beforeId != Nil
  }

  function GetRegisteredUsersByConference(st: Store, p: Principal, cid: Id, lazy: LazyLoadQuery, faults: set<Call>)
    : (r: Result<(seq<UserRow>, PageInfo), Error>)
    requires lazy.limit >= 1
    ensures BothCursors(lazy) ==> r == Err(InvalidPagination)
    ensures !BothCursors(lazy) ==> var v := Conferences.GetConferenceById(st, p, cid, faults);
      && (v.Err? ==> r == Err(v.error))
      && (v.Ok? && p.IsUser() && p.IdOrNil() != v.value.hostId ==> r == Err(ForbiddenUser))
      && (v.Ok? && (!p.IsUser() || p.IdOrNil() == v.value.hostId) ==>
            && (RegisteredUsers in faults ==> r == Err(Internal))
            && (RegisteredUsers !in faults ==> r == Ok(RegistrationRepository.GetRegisteredUsersByConference(st, cid, lazy, faults).value)))
    ensures r.Ok? ==> forall u :: u in r.value.0 ==> (cid, u.id) in st.registrations
  {
    if BothCursors(lazy) then Err(InvalidPagination)
    else match Conferences.GetConferenceById(st, p, cid, faults)
      case Err(e) => Err(e)
      case Ok(c) =>
        if p.IsUser() && p.IdOrNil() != c.hostId then Err(ForbiddenUser)
        else match RegistrationRepository.GetRegisteredUsersByConference(st, cid, lazy, faults)
          case Err(_) => Err(Internal)
          case Ok(page) => Ok(page)
  }

  /** A plain user who lists registrants hosts the conference. */
  lemma UsersListOnlyTheirOwnRegistrants(st: Store, p: Principal, cid: Id, lazy: LazyLoadQuery, faults: set<Call>)
    requires lazy.limit >= 1 && p.IsUser()
    requires GetRegisteredUsersByConference(st, p, cid, lazy, faults).Ok?
    ensures Repo.GetConferenceById(st, cid, faults).Ok?
    ensures Repo.GetConferenceById(st, cid, faults).value.hostId == p.IdOrNil()
  {
  }

  function GetRegisteredConferencesByUser(st: Store, p: Principal, uid: Id, includePast: bool,
                                          lazy: LazyLoadQuery, now: Time, faults: set<Call>)
    : (r: Result<(seq<ConferenceResponse>, PageInfo), Error>)
    requires lazy.limit >= 1
    ensures BothCursors(lazy) ==> r == Err(InvalidPagination)
    ensures !BothCursors(lazy) && p.IsUser() && p.IdOrNil() != uid ==> r == Err(ForbiddenUser)
    ensures !BothCursors(lazy) && (!p.IsUser() || p.IdOrNil() == uid) ==>
      && (RegisteredConferences in faults ==> r == Err(Internal))
      && (RegisteredConferences !in faults ==>
            var (rows, info) := RegistrationRepository.GetRegisteredConferencesByUser(st, uid, includePast, lazy, now, faults).value;
            r == Ok((PopulateAll(rows), info)))
    // the listing does not read the registration count
    ensures r.Ok? ==> forall x :: x in r.value.0 ==> x.seatsTaken == 0
  {
    if BothCursors(lazy) then Err(InvalidPagination)
    else if p.IsUser() && p.IdOrNil() != uid then Err(ForbiddenUser)
    else match RegistrationRepository.GetRegisteredConferencesByUser(st, uid, includePast, lazy, now, faults)
      case Err(_) => Err(Internal)
      case Ok((rows, info)) =>
        NoCountNoSeatsTaken(rows);
        Ok((PopulateAll(rows), info))
  }

  /** The cursor check reads nothing: it decides alone, whatever the store,
      the requester and the failing calls. */
  lemma InvalidPaginationComesFirst(st1: Store, st2: Store, p1: Principal, p2: Principal, id: Id,
                                    lazy: LazyLoadQuery, now: Time, faults1: set<Call>, faults2: set<Call>)
    requires lazy.limit >= 1 && BothCursors(lazy)
    ensures GetRegisteredUsersByConference(st1, p1, id, lazy, faults1) == GetRegisteredUsersByConference(st2, p2, id, lazy, faults2)
    ensures GetRegisteredConferencesByUser(st1, p1, id, true, lazy, now, faults1)
         == GetRegisteredConferencesByUser(st2, p2, id, false, lazy, now, faults2)
    ensures GetRegisteredUsersByConference(st1, p1, id, lazy, faults1) == Err(InvalidPagination)
  {
  }
}
